=== FILE: README.md ===
# Lexi — verified model of the deterministic core

Lexi is a Next.js legal-document assistant. It uploads contracts for analysis, drafts new documents
with a generative model, and checks drafts against a small table of
jurisdiction requirements. Most of the application is React presentation,
Firebase plumbing and calls to the Gemini API. This project models the pure,
deterministic pieces in Dafny and proves their properties:

| module (file) | models |
|---|---|
| `Wrappers` (`wrappers.dfy`) | `Option` and `Result` |
| `Strings` (`strings.dfy`) | ASCII character classes, `toLowerCase`, `includes`, `slice`, `join`, and the subsequence relation used to state order-preserving filters |
| `JurisdictionRules` (`jurisdiction_rules.dfy`) | the rule table, `getJurisdictionRequirements`, the `\b(\w+)\b` tokenizer and `validateJurisdictionCompliance` |
| `AuthService` (`auth_service.dfy`) | `validatePassword`, `getAuthErrorMessage`, and the decision part of `signUpWithEmail` |
| `DocumentContext` (`document_context.dfy`) | the current-analysis holder and `generateSuggestedQuestions` |
| `DraftGenerate` (`draft_generate.dfy`) | the draft-generation route: request validation, the five-step markdown cleanup, the document-type classifier, and the response it builds |
| `UploadForm` (`upload_form.dfy`) | `handleSelect`, the upload accept/reject decision |
| `RiskMeter` (`risk_meter.dfy`) | the colour band, description sentence, indicator rings, needle rotation and displayed number of the risk gauge |

Modelling conventions:

- Strings are `seq<char>`. A regular expression is modelled by a recursive
  function that does the same leftmost scan as a global `replace`.
  - `\w` is ASCII `[A-Za-z0-9_]`.
  - `\s` and `trim` use the six ASCII whitespace characters.
  - `toLowerCase` maps only `A`–`Z`.
  - The multiline anchors `^` and `$` use JavaScript's four line terminators.
- A value that JavaScript may leave `null` or `undefined` is an `Option`, or the
  empty string or list where the source only tests its truthiness
  (`AuthError.message`, the fields of `Analysis`).
- Anything that throws is modelled as a `Result`.
- The outside world becomes a parameter:
  - the generative model's answer is `generation: Result<string, string>`;
  - the clock reading is `timestamp`;
  - Firebase's account-creation outcome is `firebase: Option<AuthError>`.
- Mutable state becomes an explicit state value that each operation returns
  anew: `Holder` for the module-level variables of `documentContext.js`, and
  `UploadState` for the React state hooks of the upload form.

Where the comments in the source and its code disagree, the model follows the code:

- The comment at `src/lib/drafter/jurisdictionRules.js:68` says the
  "at-will" rule is matched on `at-will`. The code takes the first five
  `\w+` tokens of the lowercased rule. For the Texas rule these are `must`,
  `specify`, `if`, `the` and `employment`, and `at-will` is two tokens
  (`AtWillIsTwoTokens`). Every rule starting with "Must" is therefore satisfied by any
  draft containing `must` (`MustRuleSatisfiedByMust`).
- `getJurisdictionRequirements` never returns an empty list. So the early
  `compliant: true` return of `validateJurisdictionCompliance` (lines 57–59)
  is never taken: `GetJurisdictionRequirements` ensures `|r| > 0`.
- The draft route computes a compliance report and then discards it.
  Nothing is regenerated or reported from it (`SuccessIgnoresCompliance`).

## Model

| member | source | states |
|---|---|---|
| JurisdictionRules.GetJurisdictionRequirements | src/lib/drafter/jurisdictionRules.js:43-46 | the table entry for (documentType, jurisdiction) when both keys exist; otherwise the `other`/`US Federal` list; never empty |
| JurisdictionRules.Words | src/lib/drafter/jurisdictionRules.js:69 | every token of the global `\b(\w+)\b` match is a non-empty run of word characters, and there are no tokens exactly when the text has no word character (where `match` yields `null`) |
| JurisdictionRules.WordsOfWord | src/lib/drafter/jurisdictionRules.js:69 | a single word is tokenized as itself |
| JurisdictionRules.WordsSplit | src/lib/drafter/jurisdictionRules.js:69 | a non-word character splits the tokens: the tokens of `a + c + b` are the tokens of `a` followed by those of `b` |
| JurisdictionRules.AtWillIsTwoTokens | src/lib/drafter/jurisdictionRules.js:69 | `at-will` yields the two keywords `at` and `will`, not `at-will` |
| JurisdictionRules.MangledSectionSignIsNotAWord | src/lib/drafter/jurisdictionRules.js:12 | the two mis-decoded characters standing for the section sign contain no word token |
| JurisdictionRules.StartsWithLetterHasKeywords | src/lib/drafter/jurisdictionRules.js:69 | a rule starting with a capital letter has at least one keyword |
| JurisdictionRules.KeywordsAreNonEmpty | src/lib/drafter/jurisdictionRules.js:69 | a rule with a token has one to five keywords, none of them empty |
| JurisdictionRules.TableRulesHaveKeywords | src/lib/drafter/jurisdictionRules.js:9-35 | every rule in the shipped table has at least one word token |
| JurisdictionRules.ValidateNeverFails | src/lib/drafter/jurisdictionRules.js:55-81 | the keyword extraction never throws for any draft, jurisdiction or document type |
| JurisdictionRules.Keywords | src/lib/drafter/jurisdictionRules.js:69 | the keywords are the first five tokens of the lowercased rule (all of them when there are fewer) |
| JurisdictionRules.MissingRequirements | src/lib/drafter/jurisdictionRules.js:66-75 | the missing list keeps the requirements' order, and a rule is in it exactly when it is not `RulePresent`: none of its keywords occurs in the lowercased draft (the `some`/`includes` test of line 70) |
| JurisdictionRules.MissingBoundedByRules | src/lib/drafter/jurisdictionRules.js:66-75 | each requirement is reported missing at most as often as it is listed, so the report is never longer than the list |
| JurisdictionRules.ValidateJurisdictionCompliance | src/lib/drafter/jurisdictionRules.js:55-81 | success exactly when every looked-up rule has a token; compliant iff nothing is missing; a rule is missing iff it is looked up and none of its first five lowercased tokens is a substring of the lowercased draft; the missing list is in table order |
| JurisdictionRules.NothingPresentMeansAllMissing | src/lib/drafter/jurisdictionRules.js:66-75 | when no rule is present the missing list is the whole requirement list |
| JurisdictionRules.EmptyDraftMissesEverything | src/lib/drafter/jurisdictionRules.js:55-81 | an empty draft is non-compliant and misses every looked-up requirement |
| JurisdictionRules.PresenceSurvivesAppend | src/lib/drafter/jurisdictionRules.js:70 | a rule present in a draft stays present when text is appended |
| JurisdictionRules.MissingShrinksWithMoreText | src/lib/drafter/jurisdictionRules.js:66-75 | the missing list after appending text is a subsequence of the missing list before |
| JurisdictionRules.AppendingNeverAddsMissing | src/lib/drafter/jurisdictionRules.js:55-81 | appending text to a draft never adds a missing requirement and never makes a compliant draft non-compliant |
| JurisdictionRules.CaseInsensitive | src/lib/drafter/jurisdictionRules.js:62-70 | two drafts that agree after lowercasing get the same report |
| JurisdictionRules.LowercasedDraftSameReport | src/lib/drafter/jurisdictionRules.js:62 | lowercasing the draft first does not change the report |
| JurisdictionRules.MustRuleSatisfiedByMust | src/lib/drafter/jurisdictionRules.js:69-70 | any rule beginning "Must " is satisfied by a draft containing `must` in any case |
| JurisdictionRules.TexasSatisfiedByTheWordMust | src/lib/drafter/jurisdictionRules.js:20-24 | the draft "You MUST." is fully compliant for Texas employment |
| Strings.ToLower | src/lib/drafter/jurisdictionRules.js:62 | `toLowerCase` keeps the length, maps each upper-case letter 32 code points down and leaves every other character alone |
| Strings.ToLowerIdempotent | src/lib/drafter/jurisdictionRules.js:62 | lowercasing twice is lowercasing once |
| AuthService.Utf16Length | src/lib/authService.js:40 | `password.length` counts UTF-16 code units, between one and two per character, and equals the character count exactly when every character is in the Basic Multilingual Plane |
| AuthService.Utf16LengthAppend | src/lib/authService.js:40 | the code-unit count of a concatenation is the sum of the two counts |
| AuthService.BmpPasswordLengthRule | src/lib/authService.js:40-42 | for a password of Basic Multilingual Plane characters the length message appears exactly when it has fewer than 8 characters |
| AuthService.ValidatePassword | src/lib/authService.js:37-60 | valid iff no errors; each of the four messages is reported iff its check fails (fewer than 8 code units, no `A-Z`, no `a-z`, no `0-9`); the messages appear in that fixed order |
| AuthService.OrderedErrors | src/lib/authService.js:38-55 | any selection of the four messages pushed in check order is a subsequence of the full ordered list |
| AuthService.EmptyPasswordHasAllErrors | src/lib/authService.js:37-60 | the empty password fails all four checks, in order |
| AuthService.OnlyClassesAndLengthMatter | src/lib/authService.js:40-54 | two passwords with the same length and the same character classes get the same result |
| AuthService.GetAuthErrorMessage | src/lib/authService.js:320-336 | a known Firebase code maps to its friendly message; otherwise a non-empty error message passes through; otherwise the generic message; never empty |
| AuthService.SignUpWithEmail | src/lib/authService.js:65-106 | an invalid password fails with its errors joined by ", " and Firebase is never called; a valid password always reaches Firebase; sign-up succeeds, with the fixed confirmation message, iff the password is valid and Firebase does not fail; a Firebase error fails with that error's mapped message |
| DocumentContext.SetDocumentAnalysis | src/lib/documentContext.js:5-8 | a later `get` returns exactly the analysis and file name set |
| DocumentContext.GetDocumentAnalysis | src/lib/documentContext.js:10-12 | returns both stored slots unchanged |
| DocumentContext.ClearDocumentAnalysis | src/lib/documentContext.js:14-17 | a later `get` returns two nulls: the initial state |
| DocumentContext.SetForgetsPrevious | src/lib/documentContext.js:5-8 | a set overwrites both slots, whatever was stored before |
| DocumentContext.ClearAfterSet | src/lib/documentContext.js:5-17 | clearing after a set returns to the initial state |
| DocumentContext.GenerateSuggestedQuestions | src/lib/documentContext.js:20-63 | no analysis gives no questions; otherwise a prefix of the category-ordered candidates whose length is the number of candidates capped at 6 (so between 3 and 6) |
| DocumentContext.RiskQuestionsComeFirst | src/lib/documentContext.js:26-32 | High risk opens with the two critical-risk questions, Medium with the two main-concern questions |
| DocumentContext.OtherRiskLevelsAreAlike | src/lib/documentContext.js:26-32 | every risk level other than High and Medium adds no risk question and behaves like `Low` |
| DocumentContext.TopClauseQuestionKept | src/lib/documentContext.js:35-39 | the question about the first flagged clause always survives the cut to six |
| DocumentContext.FullAnalysisCrowdsOutClosing | src/lib/documentContext.js:26-62 | a high-risk analysis with flagged clauses and obligations yields six questions and none of the closing ones |
| DocumentContext.EmptyAnalysisGetsClosingOnly | src/lib/documentContext.js:53-62 | an analysis with nothing to report yields exactly the three closing questions |
| DraftGenerate.StripCodeFences | src/app/api/draft-generate/route.js:157 | the fence step only deletes characters: the result is a subsequence of its input. Its output on every input is fixed by FenceKeepsHead, FenceOpenerRemoved and FenceTagRemoved, one lemma per way a scan position can start |
| DraftGenerate.FenceKeepsHead | src/app/api/draft-generate/route.js:157 | where no three backticks start, the first character is copied and the scan resumes at the next one |
| DraftGenerate.FenceOpenerRemoved | src/app/api/draft-generate/route.js:157 | three backticks, any run of word characters and one line feed are removed together, and the scan resumes after the line feed |
| DraftGenerate.FenceTagRemoved | src/app/api/draft-generate/route.js:157 | three backticks and their whole word-character run, with no line feed after, are removed, and the scan resumes at the next character |
| DraftGenerate.FenceOpenerExample | src/app/api/draft-generate/route.js:157 | `` ```\nabc `` becomes `abc` |
| DraftGenerate.FencePrefixKept | src/app/api/draft-generate/route.js:157 | text before the first backtick, word characters and line feeds included, is copied unchanged |
| DraftGenerate.FenceSplit | src/app/api/draft-generate/route.js:157 | a character that no match can contain survives, and the text on each side of it is cleaned independently |
| DraftGenerate.FenceDistributes | src/app/api/draft-generate/route.js:157 | a text starting with such a character is cleaned the same whatever precedes it |
| DraftGenerate.FenceStepRemovesOnlyFenceChars | src/app/api/draft-generate/route.js:157 | every character other than a backtick, a word character or a line feed keeps its number of occurrences |
| DraftGenerate.FenceStepChangesOnlyFencedText | src/app/api/draft-generate/route.js:157 | the text comes back unchanged exactly when it contains no three backticks in a row |
| DraftGenerate.FenceStripKeepsFirst | src/app/api/draft-generate/route.js:157 | a text not starting with a fence keeps its first character |
| DraftGenerate.NoFenceAfterStrip | src/app/api/draft-generate/route.js:157 | no three backticks remain after the fence step |
| DraftGenerate.StripLineQuotesFrom | src/app/api/draft-generate/route.js:158 | the quote step only deletes characters: the result is a subsequence of its input. QuoteLineSplit and QuoteLineTrimmed together fix its output on every input |
| DraftGenerate.QuoteLineSplit | src/app/api/draft-generate/route.js:158 | the text is cleaned line by line: a line terminator survives, and each side of it is cleaned on its own, the part after it as a fresh line |
| DraftGenerate.QuoteLineDistributes | src/app/api/draft-generate/route.js:158 | a text starting with a line terminator is cleaned the same whatever precedes it |
| DraftGenerate.QuoteLineTrimmed | src/app/api/draft-generate/route.js:158 | one line loses exactly its leading and its trailing run of quote characters and keeps everything between them; a line made only of quotes becomes empty |
| DraftGenerate.QuoteKeepsHead | src/app/api/draft-generate/route.js:158 | a character other than a quote is copied, and the next position counts as a line start exactly when that character is a line terminator |
| DraftGenerate.QuoteRunLengthStopsAt | src/app/api/draft-generate/route.js:158 | a quote run is not lengthened by text after it that does not start with a quote |
| DraftGenerate.QuotedLineExample | src/app/api/draft-generate/route.js:158 | `"it's"` becomes `it's` |
| DraftGenerate.LaterLineContractionKept | src/app/api/draft-generate/route.js:158 | in `a\ndon't` the apostrophe on the second line is kept |
| DraftGenerate.InnerQuotesKept | src/app/api/draft-generate/route.js:158 | a stretch of one line that neither starts (at a line start) nor ends with a quote comes back unchanged, inner quotes included |
| DraftGenerate.ContractionKept | src/app/api/draft-generate/route.js:158 | the apostrophe in `don't` is kept |
| DraftGenerate.QuoteStepRemovesOnlyQuotes | src/app/api/draft-generate/route.js:158 | every character other than `"`, `'` and a backtick keeps its number of occurrences |
| DraftGenerate.LineQuotesKeepFirst | src/app/api/draft-generate/route.js:158 | a text not starting with a quote keeps its first character |
| DraftGenerate.QuotesLeftInsideLines | src/app/api/draft-generate/route.js:158 | every quote character left is preceded and followed, on its own line, by a non-quote character |
| DraftGenerate.NoQuoteAtLineEdges | src/app/api/draft-generate/route.js:158 | no line of the result starts or ends with a quote character |
| DraftGenerate.StripBold | src/app/api/draft-generate/route.js:159 | the bold step only deletes characters: the result is a subsequence of its input. BoldKeepsHead and BoldMarkRemoved together fix its output on every input |
| DraftGenerate.BoldKeepsHead | src/app/api/draft-generate/route.js:159 | where no `**` starts, the first character is copied and the scan resumes at the next one |
| DraftGenerate.BoldMarkRemoved | src/app/api/draft-generate/route.js:159 | a leading `**` is removed and the scan resumes right after it |
| DraftGenerate.TripleAsteriskExample | src/app/api/draft-generate/route.js:159 | `***x***` becomes `*x*`: pairs are taken from the left |
| DraftGenerate.BoldSplit | src/app/api/draft-generate/route.js:159 | any character other than `*` survives, and the text on each side of it is cleaned independently |
| DraftGenerate.BoldDistributes | src/app/api/draft-generate/route.js:159 | a text starting with a character other than `*` is cleaned the same whatever precedes it |
| DraftGenerate.LoneAsteriskKept | src/app/api/draft-generate/route.js:159 | `**a* b` becomes `a* b`: the lone `*` stays although a pair occurs |
| DraftGenerate.BoldStepRemovesOnlyAsterisks | src/app/api/draft-generate/route.js:159 | every character other than `*` keeps its number of occurrences |
| DraftGenerate.BoldStepChangesOnlyBoldText | src/app/api/draft-generate/route.js:159 | the text comes back unchanged exactly when it contains no `**` |
| DraftGenerate.NoBoldAfterStrip | src/app/api/draft-generate/route.js:159 | no `**` remains after the bold step |
| DraftGenerate.StripHeadingMarks | src/app/api/draft-generate/route.js:160 | the heading step only deletes characters: the result is a subsequence of its input. HeadingKeepsHead and HeadingMarkRemoved together fix its output on every input |
| DraftGenerate.HeadingKeepsHead | src/app/api/draft-generate/route.js:160 | where no `##` plus whitespace starts, the first character is copied and the scan resumes at the next one |
| DraftGenerate.HeadingMarkRemoved | src/app/api/draft-generate/route.js:160 | `##` and the one whitespace character after it are removed, and the scan resumes after them |
| DraftGenerate.HeadingPrefixKept | src/app/api/draft-generate/route.js:160 | text without `#` before the first `#` is copied unchanged |
| DraftGenerate.HeadingExample | src/app/api/draft-generate/route.js:160 | `## Title` becomes `Title` |
| DraftGenerate.HeadingSplit | src/app/api/draft-generate/route.js:160 | any character other than `#` and whitespace survives, and the text on each side of it is cleaned independently |
| DraftGenerate.HeadingDistributes | src/app/api/draft-generate/route.js:160 | a text starting with such a character is cleaned the same whatever precedes it |
| DraftGenerate.HeadingStepRemovesOnlyMarks | src/app/api/draft-generate/route.js:160 | the heading step keeps every occurrence of each character other than `#` and whitespace |
| DraftGenerate.HeadingStepNotIdempotent | src/app/api/draft-generate/route.js:160 | one pass can leave a fresh `## `: `### # ` becomes `## ` |
| DraftGenerate.LeadingWhitespace | src/app/api/draft-generate/route.js:161 | counts exactly the whitespace run at the start |
| DraftGenerate.TrailingWhitespace | src/app/api/draft-generate/route.js:161 | counts exactly the whitespace run at the end |
| DraftGenerate.Trim | src/app/api/draft-generate/route.js:161 | the result is a slice of the input with only whitespace cut off either end, and begins and ends with non-whitespace |
| DraftGenerate.CleanDraft | src/app/api/draft-generate/route.js:156-161 | the cleaned draft begins and ends with non-whitespace |
| DraftGenerate.BoldStepCanRejoinFence | src/app/api/draft-generate/route.js:157-159 | the fixed step order lets the bold step reassemble a fence: `` x`**``x `` becomes ```` x```x ```` |
| DraftGenerate.HeadingStepCanRejoinBold | src/app/api/draft-generate/route.js:159-160 | the heading step can reassemble bold markers: `*## *` becomes `**` |
| DraftGenerate.ClassifyDocumentType | src/app/api/draft-generate/route.js:164-166 | the classifier returns `employment`, `nda` or `other` |
| DraftGenerate.ClassifierDecision | src/app/api/draft-generate/route.js:164-166 | `employment` iff the lowercased draft contains `employment agreement`; `nda` iff not that but it contains `nda` or `non-disclosure`; `other` otherwise |
| DraftGenerate.ClassifierIgnoresCase | src/app/api/draft-generate/route.js:164-166 | the classification does not depend on letter case |
| DraftGenerate.MondayIsAnNda | src/app/api/draft-generate/route.js:165 | "Monday" is classified `nda` because it contains the bare substring |
| DraftGenerate.ClassifierKeysTheRuleTable | src/app/api/draft-generate/route.js:164-166 | every classification is a document type of the rule table |
| DraftGenerate.ValidateDraftRequest | src/app/api/draft-generate/route.js:11-23 | a missing or empty prompt is rejected first; then a missing or empty jurisdiction, or one equal to `undefined` or `null`, is rejected; otherwise both values are passed on |
| DraftGenerate.HandleDraftGenerate | src/app/api/draft-generate/route.js:7-200 | each invalid request gets its 400 message and the generator is not called; a valid one always calls it; a generation error gives 500 with its message or "Generation failed"; a 200 happens only for a valid request whose generation succeeded; a returned draft has no surrounding whitespace (the success metadata is built by `SuccessMetadata`, see GenerationSuccessIsOk) |
| DraftGenerate.GenerationSuccessIsOk | src/app/api/draft-generate/route.js:156-191 | a valid request whose generation succeeds gets 200 with the cleaned draft and the metadata of lines 180-190: model `gemini-2.0-flash-exp`, the timestamp, the request's jurisdiction, the classified type, and the fixed compliance note naming the jurisdiction with `aiInstructed` true |
| DraftGenerate.PromptCheckedFirst | src/app/api/draft-generate/route.js:11-23 | with both fields bad, the prompt error is the one reported |
| DraftGenerate.SuccessIgnoresCompliance | src/app/api/draft-generate/route.js:172-191 | two drafts with the same classification get the same metadata, whatever their compliance reports say |
| UploadForm.HandleSelect | src/components/UploadForm.jsx:11-35 | an empty list changes nothing and uploads nothing; only the first file is judged; it is uploaded exactly once iff its type is PDF, DOCX or plain text and its size is at most 10 MiB, which also clears the error and makes it the sole file; a wrong type gives the type message, and a right type that is too large gives the size message; a rejection keeps the files |
| UploadForm.OnlyFirstFileMatters | src/components/UploadForm.jsx:14 | files after the first never change the outcome |
| UploadForm.TypeCheckedBeforeSize | src/components/UploadForm.jsx:21-29 | an oversized file of the wrong type gets the type message and is not uploaded |
| UploadForm.SizeLimitIsInclusive | src/components/UploadForm.jsx:26-29 | 10485760 bytes are accepted; 10485761 are rejected with the size message |
| UploadForm.RejectionKeepsAcceptedFile | src/components/UploadForm.jsx:21-34 | a rejected selection keeps the previously accepted file and shows an error; re-accepting that file restores the earlier state |
| UploadForm.ReselectIsStable | src/components/UploadForm.jsx:31-34 | selecting the same acceptable file twice leaves the state as after the first, but uploads again |
| RiskMeter.ColorBand | src/components/features/RiskMeter.jsx:16-42 | green below 33, yellow from 33 up to but not including 66, red from 66 |
| RiskMeter.GetColorConfig | src/components/features/RiskMeter.jsx:16-42 | the configuration is the band's; the green primary colour appears exactly below 33 and the red one exactly from 66 |
| RiskMeter.ColorBandMonotone | src/components/features/RiskMeter.jsx:16-42 | a higher score never gets a calmer colour |
| RiskMeter.Description | src/components/features/RiskMeter.jsx:218-220 | exactly one sentence renders for every score: the low-risk one iff the colour is green, the high-risk one iff red |
| RiskMeter.DescriptionFollowsColor | src/components/features/RiskMeter.jsx:218-220 | the description uses the colour's thresholds for every score |
| RiskMeter.RingItems | src/components/features/RiskMeter.jsx:226-229 | three ring items, each with value 0 or 100 |
| RiskMeter.Visible | src/components/features/RiskMeter.jsx:230-231 | the rendered rings are exactly the items with a positive value |
| RiskMeter.RingBand | src/components/features/RiskMeter.jsx:227-229 | Critical above 66, Warning above 33 up to and including 66, Safe at or below 33 |
| RiskMeter.VisibleOfThree | src/components/features/RiskMeter.jsx:226-231 | filtering three items keeps the lit ones in order |
| RiskMeter.ExactlyOneRing | src/components/features/RiskMeter.jsx:226-231 | exactly one ring renders for every score, with value 100 and the ring band's label |
| RiskMeter.RingAndColorDisagreeOnlyAtThresholds | src/components/features/RiskMeter.jsx:227-229 | the rings and the colour disagree exactly at the scores 33 and 66 |
| RiskMeter.MismatchAt33 | src/components/features/RiskMeter.jsx:219-229 | at 33 the gauge is yellow with the medium sentence, yet the Safe ring is lit |
| RiskMeter.MismatchAt66 | src/components/features/RiskMeter.jsx:220-229 | at 66 the gauge is red with the high-risk sentence, yet the Warning ring is lit |
| RiskMeter.Rotation | src/components/features/RiskMeter.jsx:45 | the needle angle is the linear map with `(deg + 90) * 100 = score * 180` |
| RiskMeter.RotationEndpoints | src/components/features/RiskMeter.jsx:45 | 0 maps to -90 degrees, 50 to 0 and 100 to 90 |
| RiskMeter.RotationStrictlyIncreasing | src/components/features/RiskMeter.jsx:45 | a higher score always turns the needle further |
| RiskMeter.RotationNotClamped | src/components/features/RiskMeter.jsx:45 | scores outside 0–100 are not clamped: 200 gives 270 degrees and -100 gives -270 |
| RiskMeter.RotationOnDialIff | src/components/features/RiskMeter.jsx:45 | the needle stays within ±90 degrees exactly for scores in 0–100 |
| RiskMeter.DisplayedScore | src/components/features/RiskMeter.jsx:197 | `Math.round` gives the integer within half a point of the score, halves rounding up |
| RiskMeter.HalvesRoundUp | src/components/features/RiskMeter.jsx:197 | 32.5 displays as 33 and -0.5 as 0 |

## Left out

- User interface and animation are left out because they are DOM, framer-motion, timers and local storage. This covers:
  - the pages, the analysis results view, the auth and profile pages and the region selector;
  - the JSX of the upload form and the risk gauge;
  - the upload-progress updater.
- `RiskMeter`'s 100 ms delay before the animated score follows `score`, and the tick-mark trigonometry, are left out. The model renders the given score directly.
- Scores are real numbers, not IEEE doubles, so `NaN` and rounding of `score / 100 * 180` are not modelled.
- The chat assistant is left out. It is DOM manipulation, speech APIs and direct network calls.
- Firebase and Firestore are left out. Every `authService.js` function other than the three modelled ones is a call into Firebase Auth or Firestore.
- AuthService.SignUpWithEmail: Firebase's own steps collapse into one outcome parameter. The steps are account creation, profile update, verification mail and profile document, and the model does not separate them. The user object in the success result is not modelled.
- Gemini and the LLM SDK are left out. `src/lib/drafter/geminiClient.js` and the draft-review route are not part of this model. In the draft route, the prompt text and the `generateContent` call become the `generation` parameter.
- DraftGenerate.HandleDraftGenerate:
  - The `success` flag of the response body is implied by the body's shape, not stored.
  - A body that is not valid JSON is not modelled. In the source it throws inside the `try`.
  - `mode` and `userId` are unused, so they are left out.
- DraftGenerate.ValidateDraftRequest: non-string values are not modelled. Only a string prompt and jurisdiction, or missing ones, are. A number or object would be truthy or falsy by JavaScript's rules.
- JavaScript property lookups that hit `Object.prototype` are not modelled. Examples are a jurisdiction or document type named `toString` or `constructor`, and the same for an auth error code. The model treats such keys as misses.
- Unicode behaviour is not modelled:
  - Unicode case folding (`toLowerCase` on non-ASCII letters);
  - Unicode whitespace in `\s` and `trim`;
  - Unicode-aware `\w`.
  All three are ASCII in the model.
- JurisdictionRules.Keywords is not evaluated on the full table texts. Evaluating it in the verifier is too costly for the long literals. The model proves general facts instead: every table rule has a token (`TableRulesHaveKeywords`), and every "Must " rule is satisfied by `must` (`MustRuleSatisfiedByMust`).
- JurisdictionRules.ValidateJurisdictionCompliance: a rule with no word token gives a `Failure`, which stands for the `TypeError` that `null.slice` throws. The model does not reproduce the engine's message beyond the constant in the draft route.
- DocumentContext.GenerateSuggestedQuestions:
  - `obligations` and `missingClauses` enter only through their lengths.
  - A missing list or `documentType` is the empty list or string.
  - A flagged clause without a `title` (which would render `undefined`) is not modelled.

=== FILE: auth_service.dfy ===
/** The pure parts of `src/lib/authService.js`: the password validator, the
    Firebase error-code mapper, and the rejection path of sign-up that runs
    before any account is created. */
module AuthService {
  import opened Wrappers
  import opened Strings

  const LengthError := "Password must be at least 8 characters long"
  const UppercaseError := "Password must contain at least one uppercase letter"
  const LowercaseError := "Password must contain at least one lowercase letter"
  const DigitError := "Password must contain at least one number"

  /** The four errors in the order the validator checks them. */
  const AllPasswordErrors := [LengthError, UppercaseError, LowercaseError, DigitError]

  const MinPasswordLength := 8

  /** `String.prototype.length` counts UTF-16 code units: a character outside
      the Basic Multilingual Plane counts twice. */
  function Utf16Length(s: string): (n: nat)
    ensures |s| <= n <= 2 * |s|
    ensures n == |s| <==> forall i :: 0 <= i < |s| ==> s[i] as int <= 0xFFFF
  {
    if |s| == 0 then 0
    else (if s[0] as int > 0xFFFF then 2 else 1) + Utf16Length(s[1..])
  }

  /** The code-unit count of a concatenation is the sum of the counts. */
  lemma {:induction false} Utf16LengthAppend(a: string, b: string)
    ensures Utf16Length(a + b) == Utf16Length(a) + Utf16Length(b)
    decreases |a|
  {
    if |a| > 0 {
      assert (a + b)[0] == a[0];
      assert (a + b)[1..] == a[1..] + b;
      Utf16LengthAppend(a[1..], b);
    } else {
      assert a + b == b;
    }
  }

  /** For a password of Basic Multilingual Plane characters, which covers
      every password typed on an ordinary keyboard, the length rule counts
      characters. */
  lemma BmpPasswordLengthRule(password: string)
    requires forall i :: 0 <= i < |password| ==> password[i] as int <= 0xFFFF
    ensures LengthError in ValidatePassword(password).errors <==> |password| < MinPasswordLength
  {
  }

  predicate HasUpper(s: string) { exists i :: 0 <= i < |s| && IsUpper(s[i]) }
  predicate HasLower(s: string) { exists i :: 0 <= i < |s| && IsLower(s[i]) }
  predicate HasDigit(s: string) { exists i :: 0 <= i < |s| && IsDigit(s[i]) }

  datatype PasswordValidation = PasswordValidation(isValid: bool, errors: seq<string>)

  /** `validatePassword(password)`. */
  function ValidatePassword(password: string): (v: PasswordValidation)
    ensures v.isValid <==> v.errors == []
    ensures IsSubsequence(v.errors, AllPasswordErrors)
    ensures |v.errors| <= 4
    ensures LengthError in v.errors <==> Utf16Length(password) < MinPasswordLength
    ensures UppercaseError in v.errors <==> !HasUpper(password)
    ensures LowercaseError in v.errors <==> !HasLower(password)
    ensures DigitError in v.errors <==> !HasDigit(password)
  {
    var e1 := if Utf16Length(password) < MinPasswordLength then [LengthError] else [];
    var e2 := if !HasUpper(password) then [UppercaseError] else [];
    var e3 := if !HasLower(password) then [LowercaseError] else [];
    var e4 := if !HasDigit(password) then [DigitError] else [];
    var errors := e1 + e2 + e3 + e4;
    OrderedErrors(e1, e2, e3, e4);
    PasswordValidation(|errors| == 0, errors)
  }

  /** Choosing any of the four errors, in check order, gives a subsequence of
      the full list. */
  lemma OrderedErrors(e1: seq<string>, e2: seq<string>, e3: seq<string>, e4: seq<string>)
    requires e1 == [] || e1 == [LengthError]
    requires e2 == [] || e2 == [UppercaseError]
    requires e3 == [] || e3 == [LowercaseError]
    requires e4 == [] || e4 == [DigitError]
    ensures IsSubsequence(e1 + e2 + e3 + e4, AllPasswordErrors)
  {
    var tail4 := [DigitError];
    var tail3 := [LowercaseError] + tail4;
    var tail2 := [UppercaseError] + tail3;
    assert AllPasswordErrors == [LengthError] + tail2;
    SubsequenceRefl(e4);
    assert IsSubsequence(e4, tail4) by {
      if e4 == [] {} else { SubsequenceRefl(tail4); }
    }
    assert IsSubsequence(e3 + e4, tail3) by {
      if e3 == [] { assert e3 + e4 == e4; SubsequenceDropHead(LowercaseError, e4, tail4); }
      else { SubsequenceCons(LowercaseError, e4, tail4); }
    }
    assert IsSubsequence(e2 + e3 + e4, tail2) by {
      if e2 == [] { assert e2 + e3 + e4 == e3 + e4; SubsequenceDropHead(UppercaseError, e3 + e4, tail3); }
      else { assert e2 + e3 + e4 == [UppercaseError] + (e3 + e4); SubsequenceCons(UppercaseError, e3 + e4, tail3); }
    }
    if e1 == [] {
      assert e1 + e2 + e3 + e4 == e2 + e3 + e4;
      SubsequenceDropHead(LengthError, e2 + e3 + e4, tail2);
    } else {
      assert e1 + e2 + e3 + e4 == [LengthError] + (e2 + e3 + e4);
      SubsequenceCons(LengthError, e2 + e3 + e4, tail2);
    }
  }

  /** The empty password fails all four checks, in order. */
  lemma EmptyPasswordHasAllErrors()
    ensures ValidatePassword("") == PasswordValidation(false, AllPasswordErrors)
  {
  }

  /** Only the UTF-16 length and the presence of an upper-case letter, a
      lower-case letter and a digit matter: punctuation, spaces and other
      characters never change the verdict beyond their length. */
  lemma OnlyClassesAndLengthMatter(p: string, q: string)
    requires Utf16Length(p) == Utf16Length(q)
    requires HasUpper(p) == HasUpper(q) && HasLower(p) == HasLower(q) && HasDigit(p) == HasDigit(q)
    ensures ValidatePassword(p) == ValidatePassword(q)
  {
  }

  // ---------------------------------------------------------------------
  // Error messages
  // ---------------------------------------------------------------------

  /** A thrown error as the mapper sees it: an optional `code` and a
      `message` (the empty string stands for a missing message, both being
      falsy). */
  datatype AuthError = AuthError(code: Option<string>, message: string)

  const DefaultAuthMessage := "An error occurred. Please try again."

  const AuthErrorMessages: map<string, string> := map[
    "auth/email-already-in-use" := "This email is already registered. Please login instead.",
    "auth/invalid-email" := "Invalid email address.",
    "auth/user-disabled" := "This account has been disabled.",
    "auth/user-not-found" := "No account found with this email.",
    "auth/wrong-password" := "Incorrect password. Please try again.",
    "auth/weak-password" := "Password is too weak. Please use a stronger password.",
    "auth/network-request-failed" := "Network error. Please check your connection.",
    "auth/too-many-requests" := "Too many attempts. Please try again later.",
    "auth/operation-not-allowed" := "This sign-in method is not enabled. Please contact support.",
    "auth/popup-blocked" := "Sign-in popup was blocked. Please allow popups for this site.",
    "auth/requires-recent-login" := "Please log out and log back in to perform this action."
  ]

  predicate KnownCode(e: AuthError) {
    e.code.Some? && e.code.value in AuthErrorMessages
  }

  /** `getAuthErrorMessage(error)`: the fixed message of a known code, else
      the error's own message when it is non-empty, else the default. */
  function GetAuthErrorMessage(e: AuthError): (m: string)
    ensures KnownCode(e) ==> m == AuthErrorMessages[e.code.value]
    ensures !KnownCode(e) && e.message != "" ==> m == e.message
    ensures !KnownCode(e) && e.message == "" ==> m == DefaultAuthMessage
    ensures m != ""
  {
    if e.code.Some? && e.code.value in AuthErrorMessages then AuthErrorMessages[e.code.value]
    else if e.message != "" then e.message
    else DefaultAuthMessage
  }

  // ---------------------------------------------------------------------
  // Sign-up
  // ---------------------------------------------------------------------

  const SignUpSuccessMessage := "Account created! Please check your email to verify your account."

  datatype SignUpResult = SignedUp(message: string) | SignUpFailed(error: string)

  /** The result of `signUpWithEmail` together with whether the Firebase
      account-creation call was made. */
  datatype SignUpOutcome = SignUpOutcome(result: SignUpResult, createAccountCalled: bool)

  /** `signUpWithEmail(email, password, username)`. The Firebase steps
      (create the account, set the display name, send the verification mail,
      write the profile document) are opaque; `firebase` is `None` when all
      of them succeed and `Some(e)` when one of them throws `e`. */
  function SignUpWithEmail(password: string, firebase: Option<AuthError>): (o: SignUpOutcome)
    ensures !ValidatePassword(password).isValid ==>
              o == SignUpOutcome(SignUpFailed(Join(ValidatePassword(password).errors, ", ")), false)
    ensures ValidatePassword(password).isValid ==> o.createAccountCalled
    ensures o.result.SignedUp? <==> ValidatePassword(password).isValid && firebase.None?
    ensures ValidatePassword(password).isValid && firebase.None? ==>
              o.result == SignedUp(SignUpSuccessMessage)
    ensures ValidatePassword(password).isValid && firebase.Some? ==>
              o.result == SignUpFailed(GetAuthErrorMessage(firebase.value))
  {
    var validation := ValidatePassword(password);
    if !validation.isValid then
      // `throw new Error(joined)`: no code, so the mapper falls through to
      // the message, which is non-empty because the first error is.
      var thrown := AuthError(None, Join(validation.errors, ", "));
      JoinNonEmpty(validation.errors, ", ");
      SignUpOutcome(SignUpFailed(GetAuthErrorMessage(thrown)), false)
    else
      match firebase
      case None => SignUpOutcome(SignedUp(SignUpSuccessMessage), true)
      case Some(e) => SignUpOutcome(SignUpFailed(GetAuthErrorMessage(e)), true)
  }
}

=== FILE: document_context.dfy ===
/** `src/lib/documentContext.js`: the module-level holder for the current
    analysis and file name, and the suggested-question generator for the
    chat assistant. */
module DocumentContext {
  import opened Wrappers

  /** A flagged clause; only its title is read. */
  datatype FlaggedClause = FlaggedClause(title: string)

  /** The fields of an analysis the generator reads. A missing list is the
      empty list and a missing `documentType` is the empty string: in both
      cases the source's truthiness test fails the same way. */
  datatype Analysis = Analysis(
    riskLevel: string,
    flaggedClauses: seq<FlaggedClause>,
    obligationCount: nat,
    missingClauseCount: nat,
    documentType: string)

  // ---------------------------------------------------------------------
  // The holder: `setDocumentAnalysis`, `getDocumentAnalysis`,
  // `clearDocumentAnalysis`
  // ---------------------------------------------------------------------

  /** The two module-level variables; `None` is `null`. */
  datatype Holder = Holder(analysis: Option<Analysis>, fileName: Option<string>)

  /** The value `getDocumentAnalysis` returns. */
  datatype Snapshot = Snapshot(analysis: Option<Analysis>, fileName: Option<string>)

  /** The state at module load. */
  const InitialHolder := Holder(None, None)

  function SetDocumentAnalysis(h: Holder, analysis: Option<Analysis>, fileName: Option<string>): (h': Holder)
    ensures GetDocumentAnalysis(h') == Snapshot(analysis, fileName)
  {
    Holder(analysis, fileName)
  }

  function GetDocumentAnalysis(h: Holder): (s: Snapshot)
    ensures s.analysis == h.analysis && s.fileName == h.fileName
  {
    Snapshot(h.analysis, h.fileName)
  }

  function ClearDocumentAnalysis(h: Holder): (h': Holder)
    ensures GetDocumentAnalysis(h') == Snapshot(None, None)
    ensures h' == InitialHolder
  {
    Holder(None, None)
  }

  /** A set overwrites both slots: what was stored before is forgotten. */
  lemma SetForgetsPrevious(h1: Holder, h2: Holder, analysis: Option<Analysis>, fileName: Option<string>)
    ensures SetDocumentAnalysis(h1, analysis, fileName) == SetDocumentAnalysis(h2, analysis, fileName)
  {
  }

  /** Clearing after any sequence of sets returns to the initial state. */
  lemma ClearAfterSet(h: Holder, analysis: Option<Analysis>, fileName: Option<string>)
    ensures ClearDocumentAnalysis(SetDocumentAnalysis(h, analysis, fileName)) == InitialHolder
  {
  }

  // ---------------------------------------------------------------------
  // Suggested questions
  // ---------------------------------------------------------------------

  const HighRiskQuestions := [
    "What are the most critical risks in this document?",
    "Which clauses should I negotiate immediately?"
  ]
  const MediumRiskQuestions := [
    "What are the main concerns in this document?",
    "Are there any clauses I should pay attention to?"
  ]
  const ConsequencesQuestion := "What are the potential consequences of the risky clauses?"
  const ObligationQuestions := [
    "What are my key obligations and when are they due?",
    "What happens if I don't meet the deadlines?"
  ]
  const MissingProtectionsQuestion := "What important protections are missing from this contract?"
  const ClosingQuestions := [
    "Should I sign this document as-is?",
    "Give me a simple summary of what I'm agreeing to",
    "What are the payment terms mentioned?"
  ]

  const MaxQuestions := 6

  /** The template literal quoting the top flagged clause. */
  function ExplainClauseQuestion(title: string): string {
    "Can you explain the \"" + title + "\" clause in detail?"
  }

  function DocumentTypeQuestion(documentType: string): string {
    "What should I know about this " + documentType + "?"
  }

  function RiskQuestions(a: Analysis): (qs: seq<string>)
    ensures |qs| <= 2
  {
    if a.riskLevel == "High" then HighRiskQuestions
    else if a.riskLevel == "Medium" then MediumRiskQuestions
    else []
  }

  function FlaggedQuestions(a: Analysis): (qs: seq<string>)
    ensures |qs| <= 2
  {
    if |a.flaggedClauses| > 0 then [ExplainClauseQuestion(a.flaggedClauses[0].title), ConsequencesQuestion]
    else []
  }

  function ObligationsQuestions(a: Analysis): (qs: seq<string>)
    ensures |qs| <= 2
  {
    if a.obligationCount > 0 then ObligationQuestions else []
  }

  function MissingQuestions(a: Analysis): (qs: seq<string>)
    ensures |qs| <= 1
  {
    if a.missingClauseCount > 0 then [MissingProtectionsQuestion] else []
  }

  function TypeQuestions(a: Analysis): (qs: seq<string>)
    ensures |qs| <= 1
  {
    if a.documentType != "" then [DocumentTypeQuestion(a.documentType)] else []
  }

  /** Every question pushed before the final `slice`, category by category. */
  function CandidateQuestions(a: Analysis): seq<string>
  {
    RiskQuestions(a) + LaterQuestions(a)
  }

  /** The candidates after the risk questions, in push order. */
  function LaterQuestions(a: Analysis): seq<string>
  {
    FlaggedQuestions(a) + ObligationsQuestions(a)
      + MissingQuestions(a) + TypeQuestions(a) + ClosingQuestions
  }

  /** `generateSuggestedQuestions(analysis)`. */
  function GenerateSuggestedQuestions(analysis: Option<Analysis>): (qs: seq<string>)
    ensures analysis.None? ==> qs == []
    ensures analysis.Some? ==> 3 <= |qs| <= MaxQuestions
    ensures analysis.Some? ==>
              |qs| == if |CandidateQuestions(analysis.value)| <= MaxQuestions
                      then |CandidateQuestions(analysis.value)| else MaxQuestions
    ensures analysis.Some? ==> |qs| <= |CandidateQuestions(analysis.value)|
                               && qs == CandidateQuestions(analysis.value)[..|qs|]
    ensures analysis.Some? && |CandidateQuestions(analysis.value)| <= MaxQuestions ==>
              qs == CandidateQuestions(analysis.value)
  {
    match analysis
    case None => []
    case Some(a) =>
      var all := CandidateQuestions(a);
      if |all| <= MaxQuestions then all else all[..MaxQuestions]
  }

  /** A `High` risk level opens the list with the two critical-risk
      questions, a `Medium` one with the two main-concern questions. */
  lemma RiskQuestionsComeFirst(a: Analysis)
    ensures var qs := GenerateSuggestedQuestions(Some(a));
            (a.riskLevel == "High" ==> qs[..2] == HighRiskQuestions)
            && (a.riskLevel == "Medium" ==> qs[..2] == MediumRiskQuestions)
  {
    HeadSurvivesCut(RiskQuestions(a), LaterQuestions(a), GenerateSuggestedQuestions(Some(a)));
  }

  /** A prefix of `head + rest` at least as long as `head` starts with `head`. */
  lemma HeadSurvivesCut(head: seq<string>, rest: seq<string>, qs: seq<string>)
    requires |head| <= |qs| <= |head + rest| && qs == (head + rest)[..|qs|]
    ensures qs[..|head|] == head
  {
  }

  /** Risk levels are compared case-sensitively and only `High` and
      `Medium` count: every other level, `high` and the empty string included,
      produces the same list as `Low`, which has no risk question. */
  lemma OtherRiskLevelsAreAlike(a: Analysis)
    requires a.riskLevel != "High" && a.riskLevel != "Medium"
    ensures GenerateSuggestedQuestions(Some(a)) == GenerateSuggestedQuestions(Some(a.(riskLevel := "Low")))
    ensures RiskQuestions(a) == []
  {
  }

  /** The question quoting the first flagged clause is never cut off by the
      limit of six: at most two risk questions precede it. */
  lemma TopClauseQuestionKept(a: Analysis)
    requires |a.flaggedClauses| > 0
    ensures ExplainClauseQuestion(a.flaggedClauses[0].title) in GenerateSuggestedQuestions(Some(a))
  {
    var qs := GenerateSuggestedQuestions(Some(a));
    var k := |RiskQuestions(a)|;
    var all := CandidateQuestions(a);
    assert all[k] == ExplainClauseQuestion(a.flaggedClauses[0].title);
    assert k < |qs|;
    assert qs[k] == all[k];
  }

  /** With a high risk level, a flagged clause and obligations, the six
      slots are all taken by category questions and none of the three
      closing questions is offered. */
  lemma FullAnalysisCrowdsOutClosing(a: Analysis)
    requires a.riskLevel == "High" && |a.flaggedClauses| > 0 && a.obligationCount > 0
    ensures GenerateSuggestedQuestions(Some(a))
            == HighRiskQuestions + FlaggedQuestions(a) + ObligationQuestions
  {
    var all := CandidateQuestions(a);
    var six := HighRiskQuestions + FlaggedQuestions(a) + ObligationQuestions;
    assert all == six + (MissingQuestions(a) + TypeQuestions(a) + ClosingQuestions);
    assert all[..MaxQuestions] == six;
  }

  /** An analysis with no category at all gets exactly the three closing
      questions. */
  lemma EmptyAnalysisGetsClosingOnly(a: Analysis)
    requires a.riskLevel == "Low" && a.flaggedClauses == [] && a.obligationCount == 0
    requires a.missingClauseCount == 0 && a.documentType == ""
    ensures GenerateSuggestedQuestions(Some(a)) == ClosingQuestions
  {
  }
}

=== FILE: draft_generate.dfy ===
/** The deterministic parts of `src/app/api/draft-generate/route.js`: request
    validation, the clean-up applied to the generated text, the document-type
    classifier whose output keys the compliance check, and the shape of the
    response. The generative-model call itself is a parameter. */
module DraftGenerate {
  import opened Wrappers
  import opened Strings
  import JurisdictionRules

  // ---------------------------------------------------------------------
  // Step 1: `.replace(/```[\w]*\n?/g, '')`
  // ---------------------------------------------------------------------

  predicate StartsWithFence(s: string) {
    |s| >= 3 && s[0] == '`' && s[1] == '`' && s[2] == '`'
  }

  /** The length of one match at the start of `s`: three backticks, the
      greedy word-character tag (a language name), and an optional line
      feed. */
  function FenceMatchLength(s: string): (n: nat)
    requires StartsWithFence(s)
    ensures 3 <= n <= |s|
    ensures forall i :: 0 <= i < n ==> s[i] == '`' || IsWordChar(s[i]) || s[i] == '\n'
  {
    var tag := WordRunLength(s[3..]);
    var afterTag := s[3 + tag..];
    3 + tag + (if |afterTag| > 0 && afterTag[0] == '\n' then 1 else 0)
  }

  /** Global replacement scans left to right and resumes after each match. */
  function StripCodeFences(s: string): (r: string)
    ensures IsSubsequence(r, s)
    decreases |s|
  {
    if |s| < 3 then
      SubsequenceRefl(s);
      s
    else if StartsWithFence(s) then
      var n := FenceMatchLength(s);
      var r := StripCodeFences(s[n..]);
      SubsequenceDropPrefix(s[..n], r, s[n..]);
      assert s[..n] + s[n..] == s;
      r
    else
      var r := StripCodeFences(s[1..]);
      SubsequenceCons(s[0], r, s[1..]);
      assert [s[0]] + s[1..] == s;
      [s[0]] + r
  }

  /** Outside a match the first character is copied unchanged. */
  lemma FenceStripKeepsFirst(s: string)
    requires |s| > 0 && !StartsWithFence(s)
    ensures |StripCodeFences(s)| > 0 && StripCodeFences(s)[0] == s[0]
  {
  }

  /** After the fence step no three consecutive backticks remain, even where
      removing a match brings backticks on its two sides together. */
  lemma {:induction false} NoFenceAfterStrip(s: string)
    ensures !Contains(StripCodeFences(s), "```")
    decreases |s|
  {
    var r := StripCodeFences(s);
    if |s| < 3 {
      NotContainsLonger(r, "```");
    } else if StartsWithFence(s) {
      NoFenceAfterStrip(s[FenceMatchLength(s)..]);
    } else {
      var rest := StripCodeFences(s[1..]);
      NoFenceAfterStrip(s[1..]);
      FenceKeepsHead(s);
      FenceHeadNotFence(s);
      if Contains(r, "```") {
        ContainsCons(s[0], rest, "```");
      }
    }
  }

  /** Outside a match the text left by the fence step does not itself open
      with three backticks: the first non-backtick among the first three
      characters survives in its place. */
  lemma FenceHeadNotFence(s: string)
    requires |s| >= 3 && !StartsWithFence(s)
    ensures !OccursAt(StripCodeFences(s), "```", 0)
  {
    var r := StripCodeFences(s);
    FenceKeepsHead(s);
    if s[0] != '`' {
      MismatchNotOccurs(r, "```", 0, 0);
    } else {
      var t := s[1..];
      if s[1] != '`' {
        FenceStripKeepsFirst(t);
        assert r[1] == t[0];
        MismatchNotOccurs(r, "```", 0, 1);
      } else {
        FenceKeepsHead(t);
        FenceStripKeepsFirst(t[1..]);
        assert r[2] == t[1];
        MismatchNotOccurs(r, "```", 0, 2);
      }
    }
  }

  /** The fence step removes only backticks, tag characters and line
      feeds: every other character keeps its number of occurrences. */
  lemma {:induction false} FenceStepRemovesOnlyFenceChars(s: string, c: char)
    requires c != '`' && !IsWordChar(c) && c != '\n'
    ensures multiset(StripCodeFences(s))[c] == multiset(s)[c]
    decreases |s|
  {
    if |s| < 3 {
    } else if StartsWithFence(s) {
      var n := FenceMatchLength(s);
      FenceStepRemovesOnlyFenceChars(s[n..], c);
      assert s == s[..n] + s[n..];
      CountWithoutPrefix(s[..n], s[n..], c);
    } else {
      FenceStepRemovesOnlyFenceChars(s[1..], c);
      assert s == [s[0]] + s[1..];
      CountSameHead(s[0], StripCodeFences(s[1..]), s[1..], c);
    }
  }

  /** The fence step changes the text exactly when it contains three
      backticks in a row. */
  lemma {:induction false} FenceStepChangesOnlyFencedText(s: string)
    ensures StripCodeFences(s) == s <==> !Contains(s, "```")
    decreases |s|
  {
    if Contains(s, "```") {
      NoFenceAfterStrip(s);
    } else if |s| >= 3 {
      if StartsWithFence(s) {
        ContainsWitness(s, "```", 0);
      } else {
        if Contains(s[1..], "```") {
          // A match in the tail is a match in `s`.
          assert s == [s[0]] + s[1..] + [];
          ContainsExtend([s[0]], s[1..], [], "```");
          assert false;
        }
        FenceStepChangesOnlyFencedText(s[1..]);
        assert [s[0]] + s[1..] == s;
      }
    }
  }

  /** Text before the first backtick cannot belong to a fence match, so it
      is copied unchanged, word characters and line feeds included. */
  lemma {:induction false} FencePrefixKept(a: string, b: string)
    requires '`' !in a
    ensures StripCodeFences(a + b) == a + StripCodeFences(b)
    decreases |a|
  {
    if |a| > 0 {
      var s := a + b;
      assert s[0] == a[0];
      if |s| < 3 {
        assert StripCodeFences(b) == b;
      } else {
        assert !StartsWithFence(s);
        assert s[1..] == a[1..] + b;
        FencePrefixKept(a[1..], b);
        assert a == [a[0]] + a[1..];
      }
    } else {
      assert a + b == b;
    }
  }

  /** A character that no match can contain (not a backtick, not a tag
      character, not a line feed) separates the step: each side is cleaned
      on its own and the character survives. */
  lemma FenceSplit(a: string, c: char, b: string)
    requires c != '`' && !IsWordChar(c) && c != '\n'
    ensures StripCodeFences(a + [c] + b) == StripCodeFences(a) + [c] + StripCodeFences(b)
  {
    FenceDistributes(a, [c] + b);
    ConsParts(c, b);
    FenceKeepsHead([c] + b);
    AppendAssoc(a, [c], b);
    AppendAssoc(StripCodeFences(a), [c], StripCodeFences(b));
  }

  /** Text that starts with a separating character is cleaned on its own,
      whatever precedes it. */
  lemma {:induction false} FenceDistributes(a: string, t: string)
    requires |t| > 0 && t[0] != '`' && !IsWordChar(t[0]) && t[0] != '\n'
    ensures StripCodeFences(a + t) == StripCodeFences(a) + StripCodeFences(t)
    decreases |a|
  {
    if |a| == 0 {
      assert a + t == t;
    } else if StartsWithFence(a) {
      FenceDistributes(a[FenceMatchLength(a)..], t);
      FenceDistributesAtMatch(a, t);
    } else {
      FenceDistributes(a[1..], t);
      FenceDistributesPastChar(a, t);
    }
  }

  /** The case of `FenceDistributes` where `a` starts with a match. */
  lemma FenceDistributesAtMatch(a: string, t: string)
    requires |t| > 0 && t[0] != '`' && !IsWordChar(t[0]) && t[0] != '\n' && StartsWithFence(a)
    requires StripCodeFences(a[FenceMatchLength(a)..] + t) == StripCodeFences(a[FenceMatchLength(a)..]) + StripCodeFences(t)
    ensures StripCodeFences(a + t) == StripCodeFences(a) + StripCodeFences(t)
  {
    FenceMatchUnaffected(a, t);
  }

  /** The case of `FenceDistributes` where `a` starts with a kept character. */
  lemma FenceDistributesPastChar(a: string, t: string)
    requires |t| > 0 && t[0] != '`' && !IsWordChar(t[0]) && t[0] != '\n' && |a| > 0 && !StartsWithFence(a)
    requires StripCodeFences(a[1..] + t) == StripCodeFences(a[1..]) + StripCodeFences(t)
    ensures StripCodeFences(a + t) == StripCodeFences(a) + StripCodeFences(t)
  {
    FenceNotStartedAcross(a, t);
    FenceKeepsHead(a + t);
    SliceOfAppend(a, t, 1);
    FenceKeepsHead(a);
    ConsAppendAssoc(a[0], StripCodeFences(a[1..]), StripCodeFences(t));
  }

  /** Outside a match the first character is copied and the scan goes on
      from the next one. */
  lemma FenceKeepsHead(s: string)
    requires |s| > 0 && !StartsWithFence(s)
    ensures StripCodeFences(s) == [s[0]] + StripCodeFences(s[1..])
  {
    assert s == [s[0]] + s[1..];
  }

  /** A match cannot begin in `a` and run into `t`. */
  lemma FenceNotStartedAcross(a: string, t: string)
    requires |a| > 0 && !StartsWithFence(a) && |t| > 0 && t[0] != '`' && !IsWordChar(t[0]) && t[0] != '\n'
    ensures !StartsWithFence(a + t)
  {
    var s := a + t;
    if |a| >= 3 {
      assert s[0] == a[0] && s[1] == a[1] && s[2] == a[2];
    } else {
      assert s[|a|] == t[0];
    }
  }

  /** A match at the start of `a` is the same match when `a` is followed by
      a character that cannot extend its tag or its line feed. */
  lemma FenceMatchUnaffected(a: string, rest: string)
    requires StartsWithFence(a)
    requires rest == [] || (!IsWordChar(rest[0]) && rest[0] != '\n')
    ensures StartsWithFence(a + rest)
    ensures FenceMatchLength(a + rest) == FenceMatchLength(a)
    ensures (a + rest)[FenceMatchLength(a)..] == a[FenceMatchLength(a)..] + rest
  {
    var s := a + rest;
    assert s[3..] == a[3..] + rest;
    WordRunLengthStopsAt(a[3..], rest);
    var tag := WordRunLength(a[3..]);
    assert s[3 + tag..] == a[3 + tag..] + rest;
  }

  /** One match takes the three backticks, the whole run of tag characters
      after them and a line feed that follows the run, and the scan resumes
      right after it. */
  lemma FenceOpenerRemoved(w: string, b: string)
    requires forall i :: 0 <= i < |w| ==> IsWordChar(w[i])
    ensures StripCodeFences("```" + w + "\n" + b) == StripCodeFences(b)
  {
    var s := "```" + w + "\n" + b;
    FenceOpenerParts(w, "\n" + b);
    assert s == "```" + w + ("\n" + b);
    WordRunLengthOfAppend(w, "\n" + b);
    assert s[3 + |w|..] == "\n" + b;
    assert FenceMatchLength(s) == 4 + |w|;
    assert s[4 + |w|..] == b;
  }

  /** Without a line feed after the tag, the match ends with the tag and
      the next character is left for the scan. */
  lemma FenceTagRemoved(w: string, b: string)
    requires forall i :: 0 <= i < |w| ==> IsWordChar(w[i])
    requires b == [] || (b[0] != '\n' && !IsWordChar(b[0]))
    ensures StripCodeFences("```" + w + b) == StripCodeFences(b)
  {
    var s := "```" + w + b;
    FenceOpenerParts(w, b);
    WordRunLengthOfAppend(w, b);
    assert FenceMatchLength(s) == 3 + |w|;
  }

  /** The pieces of a text that opens with a fence and a tag. */
  lemma FenceOpenerParts(w: string, rest: string)
    ensures StartsWithFence("```" + w + rest)
    ensures ("```" + w + rest)[3..] == w + rest
    ensures ("```" + w + rest)[3 + |w|..] == rest
  {
  }

  /** A code block opener on its own line disappears and the content after
      it is kept. */
  lemma FenceOpenerExample()
    ensures StripCodeFences("```\nabc") == "abc"
  {
    FenceOpenerRemoved("", "abc");
    assert "```" + "" + "\n" + "abc" == "```\nabc";
    FencePrefixKept("abc", "");
    assert "abc" + "" == "abc";
  }

  // ---------------------------------------------------------------------
  // Step 2: `.replace(/^["'`]+|["'`]+$/gm, '')`
  // ---------------------------------------------------------------------

  /** The class `["'`]`. */
  predicate IsQuote(c: char) { c == '"' || c == '\'' || c == '`' }

  function QuoteRunLength(s: string): (n: nat)
    ensures n <= |s|
    ensures forall i :: 0 <= i < n ==> IsQuote(s[i])
    ensures n == |s| || !IsQuote(s[n])
    decreases |s|
  {
    if |s| > 0 && IsQuote(s[0]) then 1 + QuoteRunLength(s[1..]) else 0
  }

  /** `atLineStart` says whether `^` matches at the current position, i.e.
      whether the previous input character was a line terminator or there is
      none. A maximal run of quotes is removed when it starts a line (first
      alternative) or ends one (second alternative, which can only succeed
      on a run that reaches the line end); otherwise it is kept. */
  function StripLineQuotesFrom(s: string, atLineStart: bool): (r: string)
    ensures IsSubsequence(r, s)
    decreases |s|
  {
    if |s| == 0 then ""
    else if IsQuote(s[0]) then
      var n := QuoteRunLength(s);
      var r := StripLineQuotesFrom(s[n..], false);
      assert s[..n] + s[n..] == s;
      if atLineStart || n == |s| || IsLineTerminator(s[n]) then
        SubsequenceDropPrefix(s[..n], r, s[n..]);
        r
      else
        SubsequenceSamePrefix(s[..n], r, s[n..]);
        s[..n] + r
    else
      var r := StripLineQuotesFrom(s[1..], IsLineTerminator(s[0]));
      SubsequenceCons(s[0], r, s[1..]);
      assert [s[0]] + s[1..] == s;
      [s[0]] + r
  }

  /** The quote step removes only quote characters: every other character
      keeps its number of occurrences. */
  lemma {:induction false} QuoteStepRemovesOnlyQuotes(s: string, atLineStart: bool, c: char)
    requires !IsQuote(c)
    ensures multiset(StripLineQuotesFrom(s, atLineStart))[c] == multiset(s)[c]
    decreases |s|
  {
    if |s| == 0 {
    } else if IsQuote(s[0]) {
      var n := QuoteRunLength(s);
      QuoteStepRemovesOnlyQuotes(s[n..], false, c);
      assert s == s[..n] + s[n..];
      assert c !in s[..n];
    } else {
      QuoteStepRemovesOnlyQuotes(s[1..], IsLineTerminator(s[0]), c);
      assert s == [s[0]] + s[1..];
    }
  }

  /** A stretch of one line whose two ends are not quotes is left exactly
      as it is: quotes strictly inside a line, such as the apostrophe of a
      contraction, survive. */
  lemma {:induction false} InnerQuotesKept(s: string, atLineStart: bool)
    requires |s| > 0 && !IsQuote(s[|s| - 1])
    requires !atLineStart || !IsQuote(s[0])
    requires forall i :: 0 <= i < |s| ==> !IsLineTerminator(s[i])
    ensures StripLineQuotesFrom(s, atLineStart) == s
    decreases |s|
  {
    if IsQuote(s[0]) {
      var n := QuoteRunLength(s);
      assert n < |s|;
      assert !IsLineTerminator(s[n]);
      InnerQuotesKept(s[n..], false);
      assert s[..n] + s[n..] == s;
    } else if |s| > 1 {
      InnerQuotesKept(s[1..], IsLineTerminator(s[0]));
      assert [s[0]] + s[1..] == s;
    }
  }

  /** The apostrophe of a contraction is kept. */
  lemma ContractionKept()
    ensures StripLineQuotes("don't") == "don't"
  {
    InnerQuotesKept("don't", true);
  }

  /** Each line is cleaned on its own: a line terminator survives, and
      the text after it is scanned as the start of a new line. */
  lemma QuoteLineSplit(a: string, t: char, b: string, atLineStart: bool)
    requires IsLineTerminator(t)
    ensures StripLineQuotesFrom(a + [t] + b, atLineStart)
            == StripLineQuotesFrom(a, atLineStart) + [t] + StripLineQuotesFrom(b, true)
  {
    QuoteLineDistributes(a, [t] + b, atLineStart);
    ConsParts(t, b);
    QuoteKeepsHead([t] + b, true);
    AppendAssoc(a, [t], b);
    AppendAssoc(StripLineQuotesFrom(a, atLineStart), [t], StripLineQuotesFrom(b, true));
  }

  /** Text that starts with a line terminator is cleaned the same whatever
      precedes it. */
  lemma {:induction false} QuoteLineDistributes(a: string, u: string, atLineStart: bool)
    requires |u| > 0 && IsLineTerminator(u[0])
    ensures StripLineQuotesFrom(a + u, atLineStart)
            == StripLineQuotesFrom(a, atLineStart) + StripLineQuotesFrom(u, true)
    decreases |a|
  {
    if |a| == 0 {
      assert a + u == u;
      QuoteKeepsHead(u, atLineStart);
      QuoteKeepsHead(u, true);
    } else if IsQuote(a[0]) {
      QuoteLineDistributes(a[QuoteRunLength(a)..], u, false);
      QuoteDistributesAtRun(a, u, atLineStart);
    } else {
      QuoteLineDistributes(a[1..], u, IsLineTerminator(a[0]));
      QuoteDistributesPastChar(a, u, atLineStart);
    }
  }

  /** The case of `QuoteLineDistributes` where `a` starts with a quote run. */
  lemma QuoteDistributesAtRun(a: string, u: string, atLineStart: bool)
    requires |u| > 0 && IsLineTerminator(u[0]) && |a| > 0 && IsQuote(a[0])
    requires StripLineQuotesFrom(a[QuoteRunLength(a)..] + u, false)
             == StripLineQuotesFrom(a[QuoteRunLength(a)..], false) + StripLineQuotesFrom(u, true)
    ensures StripLineQuotesFrom(a + u, atLineStart)
            == StripLineQuotesFrom(a, atLineStart) + StripLineQuotesFrom(u, true)
  {
    var n := QuoteRunLength(a);
    QuoteRunLengthStopsAt(a, u);
    SliceOfAppend(a, u, n);
    QuoteRunStep(a + u, atLineStart);
    QuoteRunStep(a, atLineStart);
    if n == |a| {
      assert (a + u)[n] == u[0];
    } else {
      assert (a + u)[n] == a[n];
    }
    AppendAssoc(a[..n], StripLineQuotesFrom(a[n..], false), StripLineQuotesFrom(u, true));
  }

  /** The case of `QuoteLineDistributes` where `a` starts with a kept
      character. */
  lemma QuoteDistributesPastChar(a: string, u: string, atLineStart: bool)
    requires |u| > 0 && IsLineTerminator(u[0]) && |a| > 0 && !IsQuote(a[0])
    requires StripLineQuotesFrom(a[1..] + u, IsLineTerminator(a[0]))
             == StripLineQuotesFrom(a[1..], IsLineTerminator(a[0])) + StripLineQuotesFrom(u, true)
    ensures StripLineQuotesFrom(a + u, atLineStart)
            == StripLineQuotesFrom(a, atLineStart) + StripLineQuotesFrom(u, true)
  {
    SliceOfAppend(a, u, 1);
    assert (a + u)[0] == a[0];
    QuoteKeepsHead(a + u, atLineStart);
    QuoteKeepsHead(a, atLineStart);
    ConsAppendAssoc(a[0], StripLineQuotesFrom(a[1..], IsLineTerminator(a[0])),
                    StripLineQuotesFrom(u, true));
  }

  /** A non-quote character is copied and tells the scan whether the next
      position starts a line. */
  lemma QuoteKeepsHead(s: string, atLineStart: bool)
    requires |s| > 0 && !IsQuote(s[0])
    ensures StripLineQuotesFrom(s, atLineStart)
            == [s[0]] + StripLineQuotesFrom(s[1..], IsLineTerminator(s[0]))
  {
  }

  /** A maximal quote run is dropped at a line start or a line end and
      copied otherwise. */
  lemma QuoteRunStep(s: string, atLineStart: bool)
    requires |s| > 0 && IsQuote(s[0])
    ensures var n := QuoteRunLength(s);
            StripLineQuotesFrom(s, atLineStart)
            == if atLineStart || n == |s| || IsLineTerminator(s[n])
               then StripLineQuotesFrom(s[n..], false)
               else s[..n] + StripLineQuotesFrom(s[n..], false)
  {
  }

  /** A quote run stops where the next character is not a quote. */
  lemma {:induction false} QuoteRunLengthStopsAt(w: string, rest: string)
    requires QuoteRunLength(w) < |w| || rest == [] || !IsQuote(rest[0])
    ensures QuoteRunLength(w + rest) == QuoteRunLength(w)
    decreases |w|
  {
    if |w| > 0 {
      assert (w + rest)[0] == w[0];
      if IsQuote(w[0]) {
        assert (w + rest)[1..] == w[1..] + rest;
        QuoteRunLengthStopsAt(w[1..], rest);
      }
    } else {
      assert w + rest == rest;
    }
  }

  /** Quote runs that follow the last non-quote character of a line. */
  function TrailingQuoteRun(s: string): (n: nat)
    ensures n <= |s|
    ensures forall i :: |s| - n <= i < |s| ==> IsQuote(s[i])
    ensures n == |s| || !IsQuote(s[|s| - 1 - n])
    decreases |s|
  {
    if |s| > 0 && IsQuote(s[|s| - 1]) then 1 + TrailingQuoteRun(s[..|s| - 1]) else 0
  }

  /** A line with its leading and trailing runs of quotes cut off; a line
      made only of quotes becomes empty. */
  function QuoteTrimmed(s: string): string {
    var p := QuoteRunLength(s);
    if p == |s| then "" else s[p..|s| - TrailingQuoteRun(s)]
  }

  /** On a single line the quote step is exactly `QuoteTrimmed`: the two
      edge runs go and everything between them stays. */
  lemma {:induction false} QuoteLineTrimmed(s: string)
    requires forall i :: 0 <= i < |s| ==> !IsLineTerminator(s[i])
    ensures StripLineQuotesFrom(s, true) == QuoteTrimmed(s)
  {
    if QuoteRunLength(s) == |s| {
      QuoteLineTrimmedAllQuotes(s);
    } else {
      QuoteLineTrimmedInner(s);
    }
  }

  /** `QuoteLineTrimmed` for a line made only of quotes. */
  lemma {:induction false} QuoteLineTrimmedAllQuotes(s: string)
    requires QuoteRunLength(s) == |s|
    ensures StripLineQuotesFrom(s, true) == QuoteTrimmed(s) == ""
  {
    QuoteOnlyDropped(s, true);
  }

  /** `QuoteLineTrimmed` for a line that is not all quotes. */
  lemma {:induction false} QuoteLineTrimmedInner(s: string)
    requires QuoteRunLength(s) < |s|
    requires forall i :: 0 <= i < |s| ==> !IsLineTerminator(s[i])
    ensures TrailingQuoteRun(s) <= |s| - QuoteRunLength(s)
    ensures StripLineQuotesFrom(s, true) == s[QuoteRunLength(s)..|s| - TrailingQuoteRun(s)]
    ensures StripLineQuotesFrom(s, true) == QuoteTrimmed(s)
  {
    QuoteLeadingRunDropped(s);
    QuoteSuffixTrimmed(s, QuoteRunLength(s));
  }

  /** From a non-quote character on, the rest of the line loses exactly its
      trailing quote run. */
  lemma {:induction false} QuoteSuffixTrimmed(s: string, p: nat)
    requires p < |s| && !IsQuote(s[p])
    requires forall i :: 0 <= i < |s| ==> !IsLineTerminator(s[i])
    ensures TrailingQuoteRun(s) < |s| - p
    ensures StripLineQuotesFrom(s[p..], false) == s[p..|s| - TrailingQuoteRun(s)]
  {
    var m := s[p..];
    assert forall i :: 0 <= i < |m| ==> m[i] == s[p + i];
    QuoteTrailingRunDropped(m);
    TrailingRunOfSuffix(s, p);
    SliceOfSlice(s, p, |s| - TrailingQuoteRun(s));
  }

  /** At a line start the leading quote run goes, and the scan goes on as
      inside the line. */
  lemma {:induction false} QuoteLeadingRunDropped(s: string)
    requires QuoteRunLength(s) < |s|
    requires forall i :: 0 <= i < |s| ==> !IsLineTerminator(s[i])
    ensures StripLineQuotesFrom(s, true) == StripLineQuotesFrom(s[QuoteRunLength(s)..], false)
  {
    if QuoteRunLength(s) > 0 {
      QuoteRunStep(s, true);
    } else {
      QuoteKeepsHead(s, true);
      QuoteKeepsHead(s, false);
      assert !IsLineTerminator(s[0]);
      assert s[0..] == s;
    }
  }

  /** Inside a line, from a non-quote character on, only the trailing quote
      run goes. */
  lemma {:induction false} QuoteTrailingRunDropped(m: string)
    requires |m| > 0 && !IsQuote(m[0])
    requires forall i :: 0 <= i < |m| ==> !IsLineTerminator(m[i])
    ensures TrailingQuoteRun(m) < |m|
    ensures StripLineQuotesFrom(m, false) == m[..|m| - TrailingQuoteRun(m)]
  {
    var q := TrailingQuoteRun(m);
    var body, tail := m[..|m| - q], m[|m| - q..];
    assert m == body + tail;
    QuoteTailDropped(body, tail, false);
    InnerQuotesKept(body, false);
  }

  /** The trailing quote run of a text is that of any suffix that still
      holds a non-quote first character. */
  lemma {:induction false} TrailingRunOfSuffix(s: string, p: nat)
    requires p < |s| && !IsQuote(s[p])
    ensures TrailingQuoteRun(s[p..]) == TrailingQuoteRun(s)
    ensures TrailingQuoteRun(s) < |s| - p
  {
    var m := s[p..];
    var q := TrailingQuoteRun(m);
    assert q < |m|;
    assert forall i :: |s| - q <= i < |s| ==> s[i] == m[i - p];
    assert s[|s| - 1 - q] == m[|m| - 1 - q];
    TrailingRunIs(s, q);
  }

  /** The trailing run is pinned down by its two defining properties. */
  lemma {:induction false} TrailingRunIs(s: string, q: nat)
    requires q < |s| && !IsQuote(s[|s| - 1 - q])
    requires forall i :: |s| - q <= i < |s| ==> IsQuote(s[i])
    ensures TrailingQuoteRun(s) == q
    decreases q
  {
    if q > 0 {
      var s' := s[..|s| - 1];
      assert s'[|s'| - 1 - (q - 1)] == s[|s| - 1 - q];
      TrailingRunIs(s', q - 1);
    }
  }

  /** A text made only of quotes is removed entirely. */
  lemma QuoteOnlyDropped(t: string, atLineStart: bool)
    requires forall i :: 0 <= i < |t| ==> IsQuote(t[i])
    ensures StripLineQuotesFrom(t, atLineStart) == ""
  {
    if |t| > 0 {
      QuoteRunStep(t, atLineStart);
      assert QuoteRunLength(t) == |t|;
      assert t[|t|..] == "";
    }
  }

  /** A run of quotes that ends a line is removed and leaves the rest of
      the line as it would be cleaned on its own. */
  lemma {:induction false} QuoteTailDropped(m: string, tail: string, atLineStart: bool)
    requires |m| > 0 && !IsQuote(m[|m| - 1])
    requires atLineStart ==> !IsQuote(m[0])
    requires forall i :: 0 <= i < |m| ==> !IsLineTerminator(m[i])
    requires forall i :: 0 <= i < |tail| ==> IsQuote(tail[i])
    ensures StripLineQuotesFrom(m + tail, atLineStart) == StripLineQuotesFrom(m, atLineStart)
    decreases |m|
  {
    if IsQuote(m[0]) {
      var n := QuoteRunLength(m);
      assert n < |m|;
      assert !IsLineTerminator(m[n]);
      QuoteTailDropped(m[n..], tail, false);
      QuoteTailDroppedAtRun(m, tail, atLineStart);
    } else if |m| > 1 {
      QuoteTailDropped(m[1..], tail, false);
      QuoteTailDroppedPastChar(m, tail, atLineStart);
    } else {
      QuoteTailDroppedPastChar(m, tail, atLineStart);
    }
  }

  /** The case of `QuoteTailDropped` where `m` starts with a quote run that
      is kept. */
  lemma QuoteTailDroppedAtRun(m: string, tail: string, atLineStart: bool)
    requires |m| > 0 && IsQuote(m[0]) && !atLineStart
    requires QuoteRunLength(m) < |m| && !IsLineTerminator(m[QuoteRunLength(m)])
    requires StripLineQuotesFrom(m[QuoteRunLength(m)..] + tail, false)
             == StripLineQuotesFrom(m[QuoteRunLength(m)..], false)
    ensures StripLineQuotesFrom(m + tail, atLineStart) == StripLineQuotesFrom(m, atLineStart)
  {
    var n := QuoteRunLength(m);
    QuoteRunLengthStopsAt(m, tail);
    SliceOfAppend(m, tail, n);
    assert (m + tail)[0] == m[0] && (m + tail)[n] == m[n];
    QuoteRunStep(m + tail, atLineStart);
    QuoteRunStep(m, atLineStart);
  }

  /** The case of `QuoteTailDropped` where `m` starts with a kept character. */
  lemma QuoteTailDroppedPastChar(m: string, tail: string, atLineStart: bool)
    requires |m| > 0 && !IsQuote(m[0]) && !IsLineTerminator(m[0])
    requires forall i :: 0 <= i < |tail| ==> IsQuote(tail[i])
    requires |m| > 1 ==> StripLineQuotesFrom(m[1..] + tail, false) == StripLineQuotesFrom(m[1..], false)
    ensures StripLineQuotesFrom(m + tail, atLineStart) == StripLineQuotesFrom(m, atLineStart)
  {
    SliceOfAppend(m, tail, 1);
    assert (m + tail)[0] == m[0];
    QuoteKeepsHead(m + tail, atLineStart);
    QuoteKeepsHead(m, atLineStart);
    if |m| == 1 {
      assert m[1..] + tail == tail;
      QuoteOnlyDropped(tail, false);
    }
  }

  /** Quotes around a one-line text are cut off, quotes inside it stay. */
  lemma QuotedLineExample()
    ensures StripLineQuotes("\"it's\"") == "it's"
  {
    var s := "\"it's\"";
    QuotedLineRuns();
    QuoteLineTrimmedInner(s);
    assert s[1..5] == "it's";
  }

  /** The run lengths `QuotedLineExample` needs. */
  lemma QuotedLineRuns()
    ensures QuoteRunLength("\"it's\"") == 1 && TrailingQuoteRun("\"it's\"") == 1
    ensures forall i :: 0 <= i < |"\"it's\""| ==> !IsLineTerminator("\"it's\""[i])
  {
    var s := "\"it's\"";
    assert s[1..][0] == 'i';
    TrailingRunIs(s, 1);
  }

  /** A contraction on a later line keeps its apostrophe. */
  lemma LaterLineContractionKept()
    ensures StripLineQuotes("a\ndon't") == "a\ndon't"
  {
    QuoteLineSplit("a", '\n', "don't", true);
    assert "a" + ['\n'] + "don't" == "a\ndon't";
    SingleLetterLineKept();
    ContractionLineKept();
  }

  /** The second line of `LaterLineContractionKept`. */
  lemma ContractionLineKept()
    ensures StripLineQuotesFrom("don't", true) == "don't"
  {
    InnerQuotesKept("don't", true);
  }

  /** The first line of `LaterLineContractionKept`. */
  lemma SingleLetterLineKept()
    ensures StripLineQuotesFrom("a", true) == "a"
  {
    QuoteKeepsHead("a", true);
  }

  function StripLineQuotes(s: string): string {
    StripLineQuotesFrom(s, true)
  }

  /** Every quote left in `r` sits strictly inside a line: it has a
      neighbour on each side and neither neighbour is a line terminator.
      `atLineStart` stands for the character before `r[0]`. */
  predicate QuotesInsideLines(r: string, atLineStart: bool) {
    forall i :: 0 <= i < |r| ==> QuoteInsideLine(r, i, atLineStart)
  }

  predicate QuoteInsideLine(r: string, i: nat, atLineStart: bool)
    requires i < |r|
  {
    IsQuote(r[i]) ==>
      (if i == 0 then !atLineStart else !IsLineTerminator(r[i - 1]))
      && i + 1 < |r| && !IsLineTerminator(r[i + 1])
  }

  lemma LineQuotesKeepFirst(s: string, atLineStart: bool)
    requires |s| > 0 && !IsQuote(s[0])
    ensures |StripLineQuotesFrom(s, atLineStart)| > 0
    ensures StripLineQuotesFrom(s, atLineStart)[0] == s[0]
  {
  }

  lemma {:induction false} QuotesLeftInsideLines(s: string, atLineStart: bool)
    ensures QuotesInsideLines(StripLineQuotesFrom(s, atLineStart), atLineStart)
    decreases |s|
  {
    var r := StripLineQuotesFrom(s, atLineStart);
    if |s| == 0 {
    } else if IsQuote(s[0]) {
      var n := QuoteRunLength(s);
      var rest := StripLineQuotesFrom(s[n..], false);
      QuotesLeftInsideLines(s[n..], false);
      if n < |s| {
        LineQuotesKeepFirst(s[n..], false);
      }
      if atLineStart || n == |s| || IsLineTerminator(s[n]) {
        assert r == rest;
        forall i | 0 <= i < |r| ensures QuoteInsideLine(r, i, atLineStart) {
          assert QuoteInsideLine(rest, i, false);
        }
      } else {
        // The run is kept: it is followed by s[n], neither a quote nor a
        // line terminator, and it is not at a line start.
        assert r == s[..n] + rest;
        forall i | 0 <= i < |r| ensures QuoteInsideLine(r, i, atLineStart) {
          if i < n {
            assert r[i] == s[i];
            if i > 0 {
              assert r[i - 1] == s[i - 1];
            }
            if i + 1 < n {
              assert r[i + 1] == s[i + 1];
            } else {
              assert r[i + 1] == rest[0] == s[n];
            }
          } else if i == n {
            assert r[i] == s[n];
          } else {
            assert QuoteInsideLine(rest, i - n, false);
            assert r[i] == rest[i - n];
            assert r[i - 1] == rest[i - n - 1];
            if i + 1 < |r| {
              assert r[i + 1] == rest[i - n + 1];
            }
          }
        }
      }
    } else {
      var rest := StripLineQuotesFrom(s[1..], IsLineTerminator(s[0]));
      QuotesLeftInsideLines(s[1..], IsLineTerminator(s[0]));
      assert r == [s[0]] + rest;
      forall i | 0 <= i < |r| ensures QuoteInsideLine(r, i, atLineStart) {
        if i > 0 {
          assert QuoteInsideLine(rest, i - 1, IsLineTerminator(s[0]));
          assert r[i] == rest[i - 1];
          assert r[i - 1] == if i == 1 then s[0] else rest[i - 2];
          if i + 1 < |r| {
            assert r[i + 1] == rest[i];
          }
        }
      }
    }
  }

  /** After the quote step no line of the text begins or ends with a quote
      character. */
  lemma NoQuoteAtLineEdges(s: string)
    ensures QuotesInsideLines(StripLineQuotes(s), true)
  {
    QuotesLeftInsideLines(s, true);
  }

  // ---------------------------------------------------------------------
  // Step 3: `.replace(/\*\*/g, '')`
  // ---------------------------------------------------------------------

  predicate StartsWithBold(s: string) {
    |s| >= 2 && s[0] == '*' && s[1] == '*'
  }

  function StripBold(s: string): (r: string)
    ensures IsSubsequence(r, s)
    decreases |s|
  {
    if |s| < 2 then
      SubsequenceRefl(s);
      s
    else if StartsWithBold(s) then
      var r := StripBold(s[2..]);
      SubsequenceDropPrefix(s[..2], r, s[2..]);
      assert s[..2] + s[2..] == s;
      r
    else
      var r := StripBold(s[1..]);
      SubsequenceCons(s[0], r, s[1..]);
      assert [s[0]] + s[1..] == s;
      [s[0]] + r
  }

  /** After the bold step no `**` remains, even across a removed pair. */
  lemma {:induction false} NoBoldAfterStrip(s: string)
    ensures !Contains(StripBold(s), "**")
    decreases |s|
  {
    var r := StripBold(s);
    if |s| < 2 {
      NotContainsLonger(r, "**");
    } else if StartsWithBold(s) {
      NoBoldAfterStrip(s[2..]);
    } else {
      var rest := StripBold(s[1..]);
      NoBoldAfterStrip(s[1..]);
      assert r == [s[0]] + rest;
      if Contains(r, "**") {
        var i: nat :| i <= |r| && OccursAt(r, "**", i);
        if i > 0 {
          assert r[i..i + 2] == rest[i - 1..i + 1];
          assert OccursAt(rest, "**", i - 1);
        }
        // At i == 0, s[0] and the first surviving character of s[1..] would
        // both be '*', but then s itself started a pair.
        assert false;
      }
    }
  }

  /** The bold step removes only asterisks: every other character keeps
      its number of occurrences. */
  lemma {:induction false} BoldStepRemovesOnlyAsterisks(s: string, c: char)
    requires c != '*'
    ensures multiset(StripBold(s))[c] == multiset(s)[c]
    decreases |s|
  {
    if |s| < 2 {
    } else if StartsWithBold(s) {
      var r := StripBold(s[2..]);
      BoldStepRemovesOnlyAsterisks(s[2..], c);
      assert StripBold(s) == r;
      CountWithoutPrefix(s[..2], s[2..], c);
      assert s[..2] + s[2..] == s;
    } else {
      var r := StripBold(s[1..]);
      BoldStepRemovesOnlyAsterisks(s[1..], c);
      assert StripBold(s) == [s[0]] + r;
      CountSameHead(s[0], r, s[1..], c);
      assert [s[0]] + s[1..] == s;
    }
  }

  /** The bold step changes the text exactly when it contains `**`. */
  lemma {:induction false} BoldStepChangesOnlyBoldText(s: string)
    ensures StripBold(s) == s <==> !Contains(s, "**")
    decreases |s|
  {
    if Contains(s, "**") {
      NoBoldAfterStrip(s);
    } else if |s| >= 2 {
      if StartsWithBold(s) {
        ContainsWitness(s, "**", 0);
      } else {
        if Contains(s[1..], "**") {
          // A match in the tail is a match in `s`.
          assert s == [s[0]] + s[1..] + [];
          ContainsExtend([s[0]], s[1..], [], "**");
          assert false;
        }
        BoldStepChangesOnlyBoldText(s[1..]);
        assert [s[0]] + s[1..] == s;
      }
    }
  }

  /** Any character other than `*` separates the step: each side is
      cleaned on its own and the character survives. In particular a lone
      `*` is kept whatever pairs occur elsewhere. */
  lemma BoldSplit(a: string, c: char, b: string)
    requires c != '*'
    ensures StripBold(a + [c] + b) == StripBold(a) + [c] + StripBold(b)
  {
    BoldDistributes(a, [c] + b);
    ConsParts(c, b);
    BoldKeepsHead([c] + b);
    AppendAssoc(a, [c], b);
    AppendAssoc(StripBold(a), [c], StripBold(b));
  }

  /** Text that starts with a separating character is cleaned on its own,
      whatever precedes it. */
  lemma {:induction false} BoldDistributes(a: string, t: string)
    requires |t| > 0 && t[0] != '*'
    ensures StripBold(a + t) == StripBold(a) + StripBold(t)
    decreases |a|
  {
    if |a| == 0 {
      assert a + t == t;
    } else if StartsWithBold(a) {
      BoldDistributes(a[2..], t);
      BoldDistributesAtMatch(a, t);
    } else {
      BoldDistributes(a[1..], t);
      BoldDistributesPastChar(a, t);
    }
  }

  /** The case of `BoldDistributes` where `a` starts with a match. */
  lemma BoldDistributesAtMatch(a: string, t: string)
    requires |t| > 0 && t[0] != '*' && StartsWithBold(a)
    requires StripBold(a[2..] + t) == StripBold(a[2..]) + StripBold(t)
    ensures StripBold(a + t) == StripBold(a) + StripBold(t)
  {
    SliceOfAppend(a, t, 2);
  }

  /** The case of `BoldDistributes` where `a` starts with a kept character. */
  lemma BoldDistributesPastChar(a: string, t: string)
    requires |t| > 0 && t[0] != '*' && |a| > 0 && !StartsWithBold(a)
    requires StripBold(a[1..] + t) == StripBold(a[1..]) + StripBold(t)
    ensures StripBold(a + t) == StripBold(a) + StripBold(t)
  {
    BoldNotStartedAcross(a, t);
    BoldKeepsHead(a + t);
    SliceOfAppend(a, t, 1);
    BoldKeepsHead(a);
    ConsAppendAssoc(a[0], StripBold(a[1..]), StripBold(t));
  }

  /** Outside a match the first character is copied and the scan goes on
      from the next one. */
  lemma BoldKeepsHead(s: string)
    requires |s| > 0 && !StartsWithBold(s)
    ensures StripBold(s) == [s[0]] + StripBold(s[1..])
  {
    assert s == [s[0]] + s[1..];
  }

  /** A match cannot begin in `a` and run into `t`. */
  lemma BoldNotStartedAcross(a: string, t: string)
    requires |a| > 0 && !StartsWithBold(a) && |t| > 0 && t[0] != '*'
    ensures !StartsWithBold(a + t)
  {
    var s := a + t;
    if |a| >= 2 {
      assert s[0] == a[0] && s[1] == a[1];
    } else {
      assert s[|a|] == t[0];
    }
  }

  /** A lone asterisk survives even when the text also holds a pair. */
  lemma LoneAsteriskKept()
    ensures StripBold("**a* b") == "a* b"
  {
    BoldSplit("**a*", ' ', "b");
    assert "**a*" + [' '] + "b" == "**a* b";
    assert "**a*"[2..] == "a*";
  }

  /** A `**` pair is removed and the scan resumes right after it, so a run
      of asterisks loses its pairs from the left. */
  lemma BoldMarkRemoved(s: string)
    ensures StripBold("**" + s) == StripBold(s)
  {
    SliceOfAppend("**", s, 2);
    assert "**"[2..] == "";
    assert "**"[..2] == "**";
    assert "" + s == s;
  }

  /** An odd run of asterisks keeps one: `***x***` becomes `*x*`. */
  lemma TripleAsteriskExample()
    ensures StripBold("***x***") == "*x*"
  {
    assert "***x***" == "**" + "*x***";
    BoldMarkRemoved("*x***");
    BoldSplit("*", 'x', "***");
    assert "*" + ['x'] + "***" == "*x***";
    BoldMarkRemoved("*");
    assert "**" + "*" == "***";
  }

  // ---------------------------------------------------------------------
  // Step 4: `.replace(/##\s/g, '')`
  // ---------------------------------------------------------------------

  predicate StartsWithHeadingMark(s: string) {
    |s| >= 3 && s[0] == '#' && s[1] == '#' && IsWhitespace(s[2])
  }

  predicate IsHeadingMarkChar(c: char) { c == '#' || IsWhitespace(c) }

  /** Removes every `##` followed by one whitespace character. */
  function StripHeadingMarks(s: string): (r: string)
    ensures IsSubsequence(r, s)
    decreases |s|
  {
    if |s| < 3 then
      SubsequenceRefl(s);
      s
    else if StartsWithHeadingMark(s) then
      var r := StripHeadingMarks(s[3..]);
      SubsequenceDropPrefix(s[..3], r, s[3..]);
      assert s[..3] + s[3..] == s;
      r
    else
      var r := StripHeadingMarks(s[1..]);
      SubsequenceCons(s[0], r, s[1..]);
      assert [s[0]] + s[1..] == s;
      [s[0]] + r
  }

  /** Only `#` and whitespace are ever removed: every other character keeps
      its number of occurrences. */
  lemma {:induction false} HeadingStepRemovesOnlyMarks(s: string, c: char)
    requires !IsHeadingMarkChar(c)
    ensures multiset(StripHeadingMarks(s))[c] == multiset(s)[c]
    decreases |s|
  {
    if |s| < 3 {
    } else if StartsWithHeadingMark(s) {
      HeadingStepRemovesOnlyMarks(s[3..], c);
      assert s == s[..3] + s[3..];
      CountWithoutPrefix(s[..3], s[3..], c);
    } else {
      HeadingStepRemovesOnlyMarks(s[1..], c);
      assert s == [s[0]] + s[1..];
      CountSameHead(s[0], StripHeadingMarks(s[1..]), s[1..], c);
    }
  }

  /** Any character other than `#` and whitespace separates the step: each
      side is cleaned on its own and the character survives. */
  lemma HeadingSplit(a: string, c: char, b: string)
    requires !IsHeadingMarkChar(c)
    ensures StripHeadingMarks(a + [c] + b) == StripHeadingMarks(a) + [c] + StripHeadingMarks(b)
  {
    HeadingDistributes(a, [c] + b);
    ConsParts(c, b);
    HeadingKeepsHead([c] + b);
    AppendAssoc(a, [c], b);
    AppendAssoc(StripHeadingMarks(a), [c], StripHeadingMarks(b));
  }

  /** Text that starts with a separating character is cleaned on its own,
      whatever precedes it. */
  lemma {:induction false} HeadingDistributes(a: string, t: string)
    requires |t| > 0 && !IsHeadingMarkChar(t[0])
    ensures StripHeadingMarks(a + t) == StripHeadingMarks(a) + StripHeadingMarks(t)
    decreases |a|
  {
    if |a| == 0 {
      assert a + t == t;
    } else if StartsWithHeadingMark(a) {
      HeadingDistributes(a[3..], t);
      HeadingDistributesAtMatch(a, t);
    } else {
      HeadingDistributes(a[1..], t);
      HeadingDistributesPastChar(a, t);
    }
  }

  /** The case of `HeadingDistributes` where `a` starts with a match. */
  lemma HeadingDistributesAtMatch(a: string, t: string)
    requires |t| > 0 && !IsHeadingMarkChar(t[0]) && StartsWithHeadingMark(a)
    requires StripHeadingMarks(a[3..] + t) == StripHeadingMarks(a[3..]) + StripHeadingMarks(t)
    ensures StripHeadingMarks(a + t) == StripHeadingMarks(a) + StripHeadingMarks(t)
  {
    SliceOfAppend(a, t, 3);
  }

  /** The case of `HeadingDistributes` where `a` starts with a kept character. */
  lemma HeadingDistributesPastChar(a: string, t: string)
    requires |t| > 0 && !IsHeadingMarkChar(t[0]) && |a| > 0 && !StartsWithHeadingMark(a)
    requires StripHeadingMarks(a[1..] + t) == StripHeadingMarks(a[1..]) + StripHeadingMarks(t)
    ensures StripHeadingMarks(a + t) == StripHeadingMarks(a) + StripHeadingMarks(t)
  {
    HeadingNotStartedAcross(a, t);
    HeadingKeepsHead(a + t);
    SliceOfAppend(a, t, 1);
    HeadingKeepsHead(a);
    ConsAppendAssoc(a[0], StripHeadingMarks(a[1..]), StripHeadingMarks(t));
  }

  /** Outside a match the first character is copied and the scan goes on
      from the next one. */
  lemma HeadingKeepsHead(s: string)
    requires |s| > 0 && !StartsWithHeadingMark(s)
    ensures StripHeadingMarks(s) == [s[0]] + StripHeadingMarks(s[1..])
  {
    assert s == [s[0]] + s[1..];
  }

  /** A match cannot begin in `a` and run into `t`. */
  lemma HeadingNotStartedAcross(a: string, t: string)
    requires |a| > 0 && !StartsWithHeadingMark(a) && |t| > 0 && !IsHeadingMarkChar(t[0])
    ensures !StartsWithHeadingMark(a + t)
  {
    var s := a + t;
    if |a| >= 3 {
      assert s[0] == a[0] && s[1] == a[1] && s[2] == a[2];
    } else {
      assert s[|a|] == t[0];
    }
  }

  /** A `##` followed by one whitespace character is removed and the scan
      resumes right after it. */
  lemma HeadingMarkRemoved(w: char, t: string)
    requires IsWhitespace(w)
    ensures StripHeadingMarks("##" + [w] + t) == StripHeadingMarks(t)
  {
    var s := "##" + [w] + t;
    assert s == "##" + ([w] + t);
    SliceOfAppend("##", [w] + t, 2);
    ConsParts(w, t);
    assert s[3..] == t;
  }

  /** Text before the first `#` is copied unchanged, whitespace included. */
  lemma {:induction false} HeadingPrefixKept(a: string, b: string)
    requires '#' !in a
    ensures StripHeadingMarks(a + b) == a + StripHeadingMarks(b)
    decreases |a|
  {
    if |a| == 0 {
      assert a + b == b;
    } else {
      HeadingPrefixKept(a[1..], b);
      HeadingPrefixKeptStep(a, b);
    }
  }

  /** The step case of `HeadingPrefixKept`. */
  lemma HeadingPrefixKeptStep(a: string, b: string)
    requires |a| > 0 && '#' !in a
    requires StripHeadingMarks(a[1..] + b) == a[1..] + StripHeadingMarks(b)
    ensures StripHeadingMarks(a + b) == a + StripHeadingMarks(b)
  {
    assert (a + b)[0] == a[0];
    HeadingKeepsHead(a + b);
    SliceOfAppend(a, b, 1);
    ConsAppendAssoc(a[0], a[1..], StripHeadingMarks(b));
    assert a == [a[0]] + a[1..];
  }

  /** A markdown heading loses its marks: `## Title` becomes `Title`. */
  lemma HeadingExample()
    ensures StripHeadingMarks("## Title") == "Title"
  {
    HeadingMarkRemoved(' ', "Title");
    assert "##" + [' '] + "Title" == "## Title";
    HeadingPrefixKept("Title", "");
    assert "Title" + "" == "Title";
  }

  /** The heading step can create a new `##` followed by whitespace where
      it joins the text around a removed mark, so one pass does not remove
      them all. */
  lemma HeadingStepNotIdempotent()
    ensures StripHeadingMarks("### # ") == "## "
  {
    var s := "### # ";
    assert !StartsWithHeadingMark(s);
    assert s[1..] == "## # ";
    assert StartsWithHeadingMark(s[1..]);
    assert s[1..][3..] == "# ";
  }

  // ---------------------------------------------------------------------
  // Step 5: `.trim()`
  // ---------------------------------------------------------------------

  /** Number of whitespace characters at the start of `s`. */
  function LeadingWhitespace(s: string): (n: nat)
    ensures n <= |s|
    ensures forall k :: 0 <= k < n ==> IsWhitespace(s[k])
    ensures n == |s| || !IsWhitespace(s[n])
    decreases |s|
  {
    if |s| > 0 && IsWhitespace(s[0]) then 1 + LeadingWhitespace(s[1..]) else 0
  }

  /** Number of whitespace characters at the end of `s`. */
  function TrailingWhitespace(s: string): (n: nat)
    ensures n <= |s|
    ensures forall k :: |s| - n <= k < |s| ==> IsWhitespace(s[k])
    ensures n == |s| || !IsWhitespace(s[|s| - n - 1])
    decreases |s|
  {
    if |s| > 0 && IsWhitespace(s[|s| - 1]) then 1 + TrailingWhitespace(s[..|s| - 1]) else 0
  }

  /** `r` is the slice `s[i..j]` and everything cut off is whitespace. */
  predicate WhitespaceTrimmedSlice(s: string, r: string, i: nat, j: nat) {
    i <= j <= |s| && r == s[i..j]
    && (forall k :: 0 <= k < i ==> IsWhitespace(s[k]))
    && (forall k :: j <= k < |s| ==> IsWhitespace(s[k]))
  }

  /** `String.prototype.trim`: the slice of `s` that neither starts nor ends
      with whitespace, obtained by removing only whitespace. */
  function Trim(s: string): (r: string)
    ensures r == [] || (!IsWhitespace(r[0]) && !IsWhitespace(r[|r| - 1]))
    ensures exists i: nat, j: nat :: WhitespaceTrimmedSlice(s, r, i, j)
  {
    var i := LeadingWhitespace(s);
    var m := TrailingWhitespace(s[i..]);
    var j := |s| - m;
    assert forall k :: j <= k < |s| ==> s[k] == s[i..][k - i];
    assert WhitespaceTrimmedSlice(s, s[i..j], i, j);
    s[i..j]
  }

  // ---------------------------------------------------------------------
  // The pipeline
  // ---------------------------------------------------------------------

  /** The five chained calls, in source order. */
  function CleanDraft(text: string): (r: string)
    ensures r == [] || (!IsWhitespace(r[0]) && !IsWhitespace(r[|r| - 1]))
  {
    Trim(StripHeadingMarks(StripBold(StripLineQuotes(StripCodeFences(text)))))
  }

  /** The bold step can bring a code fence together again. */
  lemma BoldStepCanRejoinFence()
    ensures StripBold("x`**``x") == "x```x"
  {
    var a := "x`**``x";
    assert !StartsWithBold(a) && !StartsWithBold(a[1..]) && StartsWithBold(a[2..]);
    assert a[2..][2..] == "``x";
  }

  /** The heading step can bring a bold marker together again. */
  lemma HeadingStepCanRejoinBold()
    ensures StripHeadingMarks("*## *") == "**"
  {
    var b := "*## *";
    assert !StartsWithHeadingMark(b) && StartsWithHeadingMark(b[1..]);
    assert b[1..][3..] == "*";
  }

  // ---------------------------------------------------------------------
  // Document type
  // ---------------------------------------------------------------------

  const EmploymentType := "employment"
  const NdaType := "nda"
  const OtherType := "other"

  /** The chained conditional choosing the document type from the cleaned
      draft: `employment agreement` wins over `nda` and `non-disclosure`. */
  function ClassifyDocumentType(draft: string): (t: string)
    ensures t == EmploymentType || t == NdaType || t == OtherType
  {
    var lower := ToLower(draft);
    if Contains(lower, "employment agreement") then EmploymentType
    else if Contains(lower, "nda") || Contains(lower, "non-disclosure") then NdaType
    else OtherType
  }

  /** The classifier in terms of what the draft contains, both ways. */
  lemma ClassifierDecision(draft: string)
    ensures var t := ClassifyDocumentType(draft);
            var lower := ToLower(draft);
            && (t == EmploymentType <==> Contains(lower, "employment agreement"))
            && (t == NdaType <==>
                  (!Contains(lower, "employment agreement")
                   && (Contains(lower, "nda") || Contains(lower, "non-disclosure"))))
            && (t == OtherType <==>
                  (!Contains(lower, "employment agreement")
                   && !Contains(lower, "nda") && !Contains(lower, "non-disclosure")))
  {
  }

  /** Case does not matter. */
  lemma ClassifierIgnoresCase(draft: string)
    ensures ClassifyDocumentType(ToLower(draft)) == ClassifyDocumentType(draft)
  {
    ToLowerIdempotent(draft);
  }

  /** The bare substring `nda` is enough, so an ordinary word such as
      "Monday" makes a draft an NDA. */
  lemma MondayIsAnNda()
    ensures ClassifyDocumentType("Monday") == NdaType
  {
    var lower := ToLower("Monday");
    assert lower[2] == 'n' && lower[3] == 'd' && lower[4] == 'a';
    ContainsWitness(lower, "nda", 2);
    NotContainsLonger(lower, "employment agreement");
  }

  /** Every classifier output is a document-type key of the rule table. */
  lemma ClassifierKeysTheRuleTable(draft: string)
    ensures ClassifyDocumentType(draft) in JurisdictionRules.Rules
  {
  }

  // ---------------------------------------------------------------------
  // Request validation
  // ---------------------------------------------------------------------

  /** The fields of `formData` the handler reads; `None` is a missing or
      null field. */
  datatype FormData = FormData(prompt: Option<string>, jurisdiction: Option<string>)

  /** The parsed request body; `formData` itself may be missing. */
  datatype DraftRequest = DraftRequest(formData: Option<FormData>)

  const PromptRequired := "Prompt is required"
  const JurisdictionRequired := "Please select a valid region/jurisdiction before generating the document"

  /** JavaScript truthiness of an optional string. */
  predicate Truthy(v: Option<string>) { v.Some? && v.value != "" }

  function PromptOf(req: DraftRequest): Option<string> {
    if req.formData.Some? then req.formData.value.prompt else None
  }

  function JurisdictionOf(req: DraftRequest): Option<string> {
    if req.formData.Some? then req.formData.value.jurisdiction else None
  }

  /** A usable jurisdiction: present, non-empty, and not one of the two
      strings a client produces by interpolating a missing value. */
  predicate ValidJurisdiction(j: Option<string>) {
    Truthy(j) && j.value != "undefined" && j.value != "null"
  }

  datatype ValidRequest = ValidRequest(prompt: string, jurisdiction: string)

  /** The two early returns with status 400, prompt first. */
  function ValidateDraftRequest(req: DraftRequest): (r: Result<ValidRequest, string>)
    ensures r.Failure? && r.error == PromptRequired <==> !Truthy(PromptOf(req))
    ensures r.Failure? && r.error == JurisdictionRequired <==>
              Truthy(PromptOf(req)) && !ValidJurisdiction(JurisdictionOf(req))
    ensures r.Success? <==> Truthy(PromptOf(req)) && ValidJurisdiction(JurisdictionOf(req))
    ensures r.Success? ==> Some(r.value.prompt) == PromptOf(req)
                           && Some(r.value.jurisdiction) == JurisdictionOf(req)
  {
    var prompt := PromptOf(req);
    var jurisdiction := JurisdictionOf(req);
    if !Truthy(prompt) then Failure(PromptRequired)
    else if !ValidJurisdiction(jurisdiction) then Failure(JurisdictionRequired)
    else Success(ValidRequest(prompt.value, jurisdiction.value))
  }

  // ---------------------------------------------------------------------
  // The handler
  // ---------------------------------------------------------------------

  const ModelName := "gemini-2.0-flash-exp"
  const ComplianceNoteText := "Document generated with jurisdiction-specific AI instructions"
  const GenerationFailed := "Generation failed"
  /** The message of the `TypeError` a rule without a word token would
      raise (V8's wording); unreachable with the shipped table. */
  const KeywordExtractionFailed := "Cannot read properties of null (reading 'slice')"

  datatype ComplianceNote = ComplianceNote(note: string, jurisdiction: string, aiInstructed: bool)

  datatype Metadata = Metadata(
    model: string,
    timestamp: string,
    jurisdiction: string,
    documentType: string,
    jurisdictionCompliance: ComplianceNote)

  datatype ResponseBody =
    | ErrorBody(error: string)
    | DraftBody(draft: string, metadata: Metadata)

  datatype Response = Response(status: nat, body: ResponseBody)

  /** The response together with whether the generative model was called. */
  datatype Handled = Handled(response: Response, generatorCalled: bool)

  /** The metadata of a successful response. */
  function SuccessMetadata(jurisdiction: string, documentType: string, timestamp: string): Metadata {
    Metadata(ModelName, timestamp, jurisdiction, documentType,
             ComplianceNote(ComplianceNoteText, jurisdiction, true))
  }

  /** `POST(request)`. `generation` is what the generative model returns:
      its text, or the message of the error it throws (empty when the error
      has none); `timestamp` is the ISO clock reading. */
  function HandleDraftGenerate(req: DraftRequest, generation: Result<string, string>, timestamp: string)
    : (h: Handled)
    ensures !Truthy(PromptOf(req)) ==>
              h == Handled(Response(400, ErrorBody(PromptRequired)), false)
    ensures Truthy(PromptOf(req)) && !ValidJurisdiction(JurisdictionOf(req)) ==>
              h == Handled(Response(400, ErrorBody(JurisdictionRequired)), false)
    ensures h.generatorCalled <==> ValidateDraftRequest(req).Success?
    ensures h.response.status == 200 ==> ValidateDraftRequest(req).Success? && generation.Success?
    ensures ValidateDraftRequest(req).Success? && generation.Failure? ==>
              h.response == Response(500, ErrorBody(
                if generation.error != "" then generation.error else GenerationFailed))
    ensures h.response.body.DraftBody? ==>
              var d := h.response.body.draft;
              d == [] || (!IsWhitespace(d[0]) && !IsWhitespace(d[|d| - 1]))
  {
    match ValidateDraftRequest(req)
    case Failure(e) => Handled(Response(400, ErrorBody(e)), false)
    case Success(valid) =>
      match generation
      case Failure(message) =>
        Handled(Response(500, ErrorBody(if message != "" then message else GenerationFailed)), true)
      case Success(text) =>
        var draft := CleanDraft(text);
        var documentType := ClassifyDocumentType(draft);
        // The compliance report is computed and then dropped; only a throw
        // from the checker could change the response (see
        // GenerationSuccessIsOk for why it cannot).
        match JurisdictionRules.ValidateJurisdictionCompliance(draft, valid.jurisdiction, documentType)
        case Failure(_) => Handled(Response(500, ErrorBody(KeywordExtractionFailed)), true)
        case Success(_) =>
          Handled(Response(200, DraftBody(draft, SuccessMetadata(valid.jurisdiction, documentType, timestamp))), true)
  }

  /** A valid request whose generation succeeds always gets status 200:
      the keyword extraction cannot throw on the shipped rule table. */
  lemma GenerationSuccessIsOk(req: DraftRequest, text: string, timestamp: string)
    requires ValidateDraftRequest(req).Success?
    ensures var r := HandleDraftGenerate(req, Success(text), timestamp).response;
            r.status == 200 && r.body.DraftBody? && r.body.draft == CleanDraft(text)
            && r.body.metadata == Metadata(
                 ModelName, timestamp, ValidateDraftRequest(req).value.jurisdiction,
                 ClassifyDocumentType(CleanDraft(text)),
                 ComplianceNote(ComplianceNoteText, ValidateDraftRequest(req).value.jurisdiction, true))
  {
    var v := ValidateDraftRequest(req).value;
    var draft := CleanDraft(text);
    JurisdictionRules.ValidateNeverFails(draft, v.jurisdiction, ClassifyDocumentType(draft));
  }

  /** The missing prompt is reported even when the jurisdiction is bad too:
      the prompt check runs first. */
  lemma PromptCheckedFirst(req: DraftRequest, generation: Result<string, string>, timestamp: string)
    requires !Truthy(PromptOf(req)) && !ValidJurisdiction(JurisdictionOf(req))
    ensures HandleDraftGenerate(req, generation, timestamp).response.body == ErrorBody(PromptRequired)
  {
  }

  /** The success body is the cleaned draft and metadata built from the
      jurisdiction, the classified type and the clock alone: the compliance
      report never reaches it, so a draft that misses every requirement and
      one that meets them all get the same metadata when they classify
      alike. */
  lemma SuccessIgnoresCompliance(req: DraftRequest, t1: string, t2: string, timestamp: string)
    requires ValidateDraftRequest(req).Success?
    requires ClassifyDocumentType(CleanDraft(t1)) == ClassifyDocumentType(CleanDraft(t2))
    ensures var r1 := HandleDraftGenerate(req, Success(t1), timestamp).response;
            var r2 := HandleDraftGenerate(req, Success(t2), timestamp).response;
            r1.body.DraftBody? && r2.body.DraftBody?
            && r1.body.draft == CleanDraft(t1) && r2.body.draft == CleanDraft(t2)
            && r1.body.metadata == r2.body.metadata
  {
    GenerationSuccessIsOk(req, t1, timestamp);
    GenerationSuccessIsOk(req, t2, timestamp);
  }
}

=== FILE: jurisdiction_rules.dfy ===
/** The jurisdiction rule store and the keyword-presence compliance checker
    of `src/lib/drafter/jurisdictionRules.js`.

    The store is a static two-level table: document type, then jurisdiction,
    then an ordered list of requirement sentences. The checker lowercases the
    draft, takes the first five `\w+` tokens of each lowercased requirement
    as its keywords, and reports the requirement missing when none of them
    occurs as a substring of the draft. */
module JurisdictionRules {
  import opened Wrappers
  import opened Strings

  type RuleTable = map<string, map<string, seq<string>>>

  /** The static rule table, entry for entry. The section sign in the first
      California sentence is stored as the two Thai letters U+0E22 U+0E07,
      which is how the source file spells it. Each sentence is written as its
      leading word followed by the remainder; the concatenation is the same
      string, and the split lets proofs read the leading word directly. */
  const Rules: RuleTable := map[
    "nda" := map[
      "California" := [
        "Must " + "include a specific clause protecting the disclosure of information related to sexual harassment or assault (Civil Code \U{0E22}\U{0E07} 1670.11).",
        "Must " + "clearly state that the agreement does not prohibit the employee from discussing wages, hours, or working conditions."
      ],
      "New York" := [
        "Must " + "include a carve-out for disclosures to law enforcement, government agencies, or an attorney.",
        "Cannot " + "be used to conceal claims of discrimination, harassment, or retaliation."
      ]
    ],
    "employment" := map[
      "Texas" := [
        "Must " + "specify if the employment is \"at-will,\" meaning it can be terminated by either party for any reason.",
        "Must " + "include language regarding non-compete clauses if applicable, outlining scope, duration, and geographic limitations."
      ],
      "US Federal" := [
        "Must " + "include an Equal Opportunity Employer (EOE) statement.",
        "Must " + "comply with the Fair Labor Standards Act (FLSA) regarding wage and hour provisions."
      ]
    ],
    "other" := map[
      "US Federal" := [
        "Must " + "include a severability clause, stating that if one part of the contract is found unenforceable, the rest of the contract remains valid."
      ]
    ]
  ]

  /** The designated default rule set, `other` / `US Federal`. */
  const DefaultType := "other"
  const DefaultJurisdiction := "US Federal"

  /** Exact-match two-level lookup with the source's fallback: a missing
      document type behaves like an empty sub-table, and a missing
      jurisdiction yields the default rule set. A JavaScript array is truthy
      even when empty, so a present entry is returned as it is; the final
      `|| []` of the source is unreachable because the default entry exists. */
  function GetJurisdictionRequirements(jurisdiction: string, documentType: string): (r: seq<string>)
    ensures documentType in Rules && jurisdiction in Rules[documentType] ==>
              r == Rules[documentType][jurisdiction]
    ensures !(documentType in Rules && jurisdiction in Rules[documentType]) ==>
              r == Rules[DefaultType][DefaultJurisdiction]
    ensures |r| > 0
  {
    var docRules := if documentType in Rules then Rules[documentType] else map[];
    if jurisdiction in docRules then docRules[jurisdiction]
    else Rules[DefaultType][DefaultJurisdiction]
  }

  // ---------------------------------------------------------------------
  // Keyword extraction: `req.toLowerCase().match(/\b(\w+)\b/g).slice(0, 5)`
  // ---------------------------------------------------------------------

  /** A token of the pattern `\b(\w+)\b`: a non-empty run of word characters. */
  predicate IsWord(w: string) {
    |w| > 0 && forall i :: 0 <= i < |w| ==> IsWordChar(w[i])
  }

  predicate HasWordChar(s: string) {
    exists i :: 0 <= i < |s| && IsWordChar(s[i])
  }

  /** All matches of the global pattern `\b(\w+)\b`, left to right: the
      maximal runs of word characters. */
  function Words(s: string): (ws: seq<string>)
    ensures forall w :: w in ws ==> IsWord(w)
    ensures ws == [] <==> !HasWordChar(s)
    decreases |s|
  {
    if |s| == 0 then []
    else if !IsWordChar(s[0]) then
      var rest := Words(s[1..]);
      assert HasWordChar(s[1..]) ==> HasWordChar(s) by {
        if HasWordChar(s[1..]) {
          var i :| 0 <= i < |s[1..]| && IsWordChar(s[1..][i]);
          assert IsWordChar(s[i + 1]);
        }
      }
      rest
    else
      var n := WordRunLength(s);
      [s[..n]] + Words(s[n..])
  }

  /** The keywords of a requirement: its first five lowercased tokens. */
  function Keywords(rule: string): (k: seq<string>)
    ensures |k| == if |Words(ToLower(rule))| < 5 then |Words(ToLower(rule))| else 5
    ensures k == Words(ToLower(rule))[..|k|]
  {
    Take(Words(ToLower(rule)), 5)
  }

  /** `match` returns null, and the source throws, exactly when the
      lowercased rule has no word character at all. */
  predicate HasKeywords(rule: string) {
    Words(ToLower(rule)) != []
  }

  /** A requirement is considered present when one of its keywords occurs
      anywhere in the already-lowercased draft. */
  predicate RulePresent(lowerDraft: string, rule: string) {
    exists i :: 0 <= i < |Keywords(rule)| && Contains(lowerDraft, Keywords(rule)[i])
  }

  /** The `forEach` loop: the requirements with no keyword in the draft,
      in list order. */
  function MissingRequirements(lowerDraft: string, reqs: seq<string>): (missing: seq<string>)
    ensures IsSubsequence(missing, reqs)
    ensures forall r :: r in missing <==> r in reqs && !RulePresent(lowerDraft, r)
    decreases |reqs|
  {
    if |reqs| == 0 then []
    else
      var rest := MissingRequirements(lowerDraft, reqs[1..]);
      assert forall r :: r in reqs <==> r == reqs[0] || r in reqs[1..] by {
        assert reqs == [reqs[0]] + reqs[1..];
      }
      if RulePresent(lowerDraft, reqs[0]) then
        SubsequenceDropHead(reqs[0], rest, reqs[1..]);
        assert [reqs[0]] + reqs[1..] == reqs;
        rest
      else
        SubsequenceCons(reqs[0], rest, reqs[1..]);
        assert [reqs[0]] + reqs[1..] == reqs;
        [reqs[0]] + rest
  }

  /** The first requirement, in list order, on which keyword extraction
      throws. */
  function FirstWithoutKeywords(reqs: seq<string>): (r: Option<string>)
    ensures r.None? <==> forall i :: 0 <= i < |reqs| ==> HasKeywords(reqs[i])
    ensures r.Some? ==> r.value in reqs && !HasKeywords(r.value)
    decreases |reqs|
  {
    if |reqs| == 0 then None
    else if !HasKeywords(reqs[0]) then Some(reqs[0])
    else FirstWithoutKeywords(reqs[1..])
  }

  datatype ComplianceReport = ComplianceReport(compliant: bool, missingRequirements: seq<string>)

  /** The `TypeError` thrown when a requirement has no `\w` token. */
  datatype ComplianceError = NoWordToken(rule: string)

  /** `validateJurisdictionCompliance(draftText, jurisdiction, documentType)`. */
  function ValidateJurisdictionCompliance(draftText: string, jurisdiction: string, documentType: string)
    : (r: Result<ComplianceReport, ComplianceError>)
    ensures var reqs := GetJurisdictionRequirements(jurisdiction, documentType);
            r.Success? <==> forall i :: 0 <= i < |reqs| ==> HasKeywords(reqs[i])
    ensures r.Success? ==> (r.value.compliant <==> r.value.missingRequirements == [])
    ensures r.Success? ==>
              IsSubsequence(r.value.missingRequirements, GetJurisdictionRequirements(jurisdiction, documentType))
    ensures r.Success? ==>
              forall req :: req in r.value.missingRequirements <==>
                req in GetJurisdictionRequirements(jurisdiction, documentType)
                && !RulePresent(ToLower(draftText), req)
  {
    var requirements := GetJurisdictionRequirements(jurisdiction, documentType);
    if |requirements| == 0 then
      Success(ComplianceReport(true, []))
    else
      match FirstWithoutKeywords(requirements)
      case Some(rule) => Failure(NoWordToken(rule))
      case None =>
        var missing := MissingRequirements(ToLower(draftText), requirements);
        Success(ComplianceReport(|missing| == 0, missing))
  }

  /** Each requirement is reported missing at most as often as it occurs in
      the looked-up list, so the report never grows past the list. */
  lemma MissingBoundedByRules(lowerDraft: string, reqs: seq<string>)
    ensures multiset(MissingRequirements(lowerDraft, reqs)) <= multiset(reqs)
    ensures |MissingRequirements(lowerDraft, reqs)| <= |reqs|
  {
    SubsequenceMultiset(MissingRequirements(lowerDraft, reqs), reqs);
  }

  // ---------------------------------------------------------------------
  // The tokenizer
  // ---------------------------------------------------------------------

  /** A single run of word characters is exactly one token. */
  lemma WordsOfWord(w: string)
    requires IsWord(w)
    ensures Words(w) == [w]
  {
    WordRunLengthOfAppend(w, []);
    assert w + [] == w;
  }

  /** A non-word character splits the text: the tokens of the two sides are
      found independently and in order. With `WordsOfWord` and the empty
      case this determines `Words` completely. */
  lemma {:induction false} WordsSplit(a: string, c: char, b: string)
    requires !IsWordChar(c)
    ensures Words(a + [c] + b) == Words(a) + Words(b)
    decreases |a|
  {
    var s := a + [c] + b;
    if |a| == 0 {
      assert s == [c] + b;
      assert s[1..] == b;
    } else if !IsWordChar(a[0]) {
      assert s[1..] == a[1..] + [c] + b;
      WordsSplit(a[1..], c, b);
    } else {
      var n := WordRunLength(a);
      assert a == a[..n] + a[n..];
      var tail := a[n..] + [c] + b;
      assert s == a[..n] + tail;
      assert tail[0] == (if n < |a| then a[n] else c);
      WordRunLengthOfAppend(a[..n], tail);
      assert s[..n] == a[..n];
      assert s[n..] == tail;
      WordsSplit(a[n..], c, b);
    }
  }

  /** A hyphen is not a word character, so `at-will` yields two tokens. */
  lemma AtWillIsTwoTokens()
    ensures Words("at-will") == ["at", "will"]
  {
    var at, will := "at", "will";
    assert IsWord(at) && IsWord(will);
    assert "at-will" == at + ['-'] + will;
    WordsSplit(at, '-', will);
    WordsOfWord(at);
    WordsOfWord(will);
  }

  /** The mangled section sign contributes no token. */
  lemma MangledSectionSignIsNotAWord()
    ensures Words("\U{0E22}\U{0E07}") == []
  {
  }

  // ---------------------------------------------------------------------
  // The shipped table
  // ---------------------------------------------------------------------

  lemma StartsWithLetterHasKeywords(rule: string)
    requires |rule| > 0 && IsUpper(rule[0])
    ensures HasKeywords(rule)
  {
    assert IsWordChar(ToLower(rule)[0]);
  }

  /** Every rule of the table has at least one `\w` token, so keyword
      extraction never throws on the shipped table. */
  lemma TableRulesHaveKeywords()
    ensures forall t, j, i :: t in Rules && j in Rules[t] && 0 <= i < |Rules[t][j]| ==>
              HasKeywords(Rules[t][j][i])
  {
    forall t, j, i | t in Rules && j in Rules[t] && 0 <= i < |Rules[t][j]|
      ensures HasKeywords(Rules[t][j][i])
    {
      var rule := Rules[t][j][i];
      assert rule[0] == 'M' || rule[0] == 'C';
      StartsWithLetterHasKeywords(rule);
    }
  }

  /** With the shipped table the checker never throws and never takes the
      early "no rules, so compliant" exit. */
  lemma ValidateNeverFails(draftText: string, jurisdiction: string, documentType: string)
    ensures ValidateJurisdictionCompliance(draftText, jurisdiction, documentType).Success?
  {
    TableRulesHaveKeywords();
  }

  // ---------------------------------------------------------------------
  // Properties of the checker
  // ---------------------------------------------------------------------

  lemma KeywordsAreNonEmpty(rule: string)
    requires HasKeywords(rule)
    ensures |Keywords(rule)| > 0
    ensures forall i :: 0 <= i < |Keywords(rule)| ==> |Keywords(rule)[i]| > 0
  {
    var ks := Keywords(rule);
    forall i | 0 <= i < |ks| ensures |ks[i]| > 0 {
      assert ks[i] in Words(ToLower(rule));
    }
  }

  lemma {:induction false} NothingPresentMeansAllMissing(lowerDraft: string, reqs: seq<string>)
    requires forall i :: 0 <= i < |reqs| ==> !RulePresent(lowerDraft, reqs[i])
    ensures MissingRequirements(lowerDraft, reqs) == reqs
    decreases |reqs|
  {
    if |reqs| > 0 {
      NothingPresentMeansAllMissing(lowerDraft, reqs[1..]);
      assert [reqs[0]] + reqs[1..] == reqs;
    }
  }

  /** An empty draft contains no keyword, so every requirement of the looked
      up list is reported missing, in order, and the draft is not compliant. */
  lemma EmptyDraftMissesEverything(jurisdiction: string, documentType: string)
    ensures ValidateJurisdictionCompliance("", jurisdiction, documentType)
            == Success(ComplianceReport(false, GetJurisdictionRequirements(jurisdiction, documentType)))
  {
    var reqs := GetJurisdictionRequirements(jurisdiction, documentType);
    TableRulesHaveKeywords();
    forall i | 0 <= i < |reqs| ensures !RulePresent(ToLower(""), reqs[i]) {
      KeywordsAreNonEmpty(reqs[i]);
    }
    NothingPresentMeansAllMissing(ToLower(""), reqs);
  }

  lemma PresenceSurvivesAppend(lowerDraft: string, more: string, rule: string)
    requires RulePresent(lowerDraft, rule)
    ensures RulePresent(lowerDraft + more, rule)
  {
    var ks := Keywords(rule);
    var i :| 0 <= i < |ks| && Contains(lowerDraft, ks[i]);
    ContainsExtend("", lowerDraft, more, ks[i]);
    assert "" + lowerDraft + more == lowerDraft + more;
  }

  lemma {:induction false} MissingShrinksWithMoreText(lowerDraft: string, more: string, reqs: seq<string>)
    ensures IsSubsequence(MissingRequirements(lowerDraft + more, reqs), MissingRequirements(lowerDraft, reqs))
    decreases |reqs|
  {
    if |reqs| > 0 {
      MissingShrinksWithMoreText(lowerDraft, more, reqs[1..]);
      var longer := MissingRequirements(lowerDraft + more, reqs[1..]);
      var shorter := MissingRequirements(lowerDraft, reqs[1..]);
      if RulePresent(lowerDraft, reqs[0]) {
        PresenceSurvivesAppend(lowerDraft, more, reqs[0]);
      } else if RulePresent(lowerDraft + more, reqs[0]) {
        SubsequenceDropHead(reqs[0], longer, shorter);
      } else {
        SubsequenceCons(reqs[0], longer, shorter);
      }
    }
  }

  /** Monotonicity: appending text to a draft never adds a requirement to
      the missing list; the new list is a subsequence of the old one. */
  lemma AppendingNeverAddsMissing(draftText: string, more: string, jurisdiction: string, documentType: string)
    ensures var before := ValidateJurisdictionCompliance(draftText, jurisdiction, documentType);
            var after := ValidateJurisdictionCompliance(draftText + more, jurisdiction, documentType);
            before.Success? && after.Success? &&
            IsSubsequence(after.value.missingRequirements, before.value.missingRequirements) &&
            (before.value.compliant ==> after.value.compliant)
  {
    ValidateNeverFails(draftText, jurisdiction, documentType);
    ValidateNeverFails(draftText + more, jurisdiction, documentType);
    ToLowerAppend(draftText, more);
    var reqs := GetJurisdictionRequirements(jurisdiction, documentType);
    MissingShrinksWithMoreText(ToLower(draftText), ToLower(more), reqs);
  }

  /** Matching is case-insensitive: drafts that agree after lowercasing get
      the same report, and in particular a draft and its lowercase form do. */
  lemma CaseInsensitive(d1: string, d2: string, jurisdiction: string, documentType: string)
    requires ToLower(d1) == ToLower(d2)
    ensures ValidateJurisdictionCompliance(d1, jurisdiction, documentType)
            == ValidateJurisdictionCompliance(d2, jurisdiction, documentType)
  {
  }

  lemma LowercasedDraftSameReport(draftText: string, jurisdiction: string, documentType: string)
    ensures ValidateJurisdictionCompliance(ToLower(draftText), jurisdiction, documentType)
            == ValidateJurisdictionCompliance(draftText, jurisdiction, documentType)
  {
    ToLowerIdempotent(draftText);
  }

  /** A rule whose text begins with the word "Must" has "must" as its first
      keyword, so any draft that contains "must" in any letter case
      satisfies it, whatever the rest of the rule asks for. */
  lemma MustRuleSatisfiedByMust(rule: string, draftText: string)
    requires |rule| >= 5 && rule[..5] == "Must "
    requires Contains(ToLower(draftText), "must")
    ensures RulePresent(ToLower(draftText), rule)
  {
    var low := ToLower(rule);
    assert low == "must" + [' '] + low[5..];
    WordsSplit("must", ' ', low[5..]);
    WordsOfWord("must");
    assert Keywords(rule)[0] == "must";
  }

  /** The looseness of the heuristic on a concrete draft: "You MUST." meets
      both Texas employment requirements. */
  lemma TexasSatisfiedByTheWordMust()
    ensures ValidateJurisdictionCompliance("You MUST.", "Texas", "employment")
            == Success(ComplianceReport(true, []))
  {
    var reqs := Rules["employment"]["Texas"];
    var low := ToLower("You MUST.");
    ContainsWitness(low, "must", 4);
    forall i | 0 <= i < |reqs| ensures RulePresent(low, reqs[i]) {
      assert reqs[i][..5] == "Must ";
      MustRuleSatisfiedByMust(reqs[i], "You MUST.");
    }
    TableRulesHaveKeywords();
  }
}

=== FILE: risk_meter.dfy ===
/**
 * The score-dependent parts of the risk gauge: the colour configuration,
 * the description sentence, the Critical/Warning/Safe indicator rings, the
 * needle rotation and the displayed number. Scores are real numbers; the
 * gauge renders the score it was given (the 100 ms delay before the
 * animated score catches up is not modelled).
 */
module RiskMeter {

  /** The three colour bands of `getColorConfig`. */
  datatype Band = Green | Yellow | Red

  datatype ColorConfig = ColorConfig(
    primary: string,
    secondary: string,
    gradient: string,
    glow: string,
    text: string)

  const GreenConfig := ColorConfig("#10b981", "#34d399", "from-green-500 to-emerald-400",
                                   "shadow-green-500/50", "text-green-400")
  const YellowConfig := ColorConfig("#f59e0b", "#fbbf24", "from-yellow-500 to-amber-400",
                                    "shadow-yellow-500/50", "text-yellow-400")
  const RedConfig := ColorConfig("#ef4444", "#f87171", "from-red-500 to-rose-400",
                                 "shadow-red-500/50", "text-red-400")

  /** How alarming a band is, for ordering. */
  function Severity(b: Band): nat {
    match b
    case Green => 0
    case Yellow => 1
    case Red => 2
  }

  function ConfigOf(b: Band): ColorConfig {
    match b
    case Green => GreenConfig
    case Yellow => YellowConfig
    case Red => RedConfig
  }

  /** The band `getColorConfig` picks: lower bounds inclusive. */
  function ColorBand(score: real): (b: Band)
    ensures b == Green <==> score < 33.0
    ensures b == Yellow <==> 33.0 <= score < 66.0
    ensures b == Red <==> 66.0 <= score
  {
    if score < 33.0 then Green
    else if score < 66.0 then Yellow
    else Red
  }

  /** `getColorConfig()`. */
  function GetColorConfig(score: real): (c: ColorConfig)
    ensures c == ConfigOf(ColorBand(score))
    ensures c.primary == "#10b981" <==> score < 33.0
    ensures c.primary == "#ef4444" <==> 66.0 <= score
  {
    ConfigOf(ColorBand(score))
  }

  /** A higher score never gets a calmer colour. */
  lemma ColorBandMonotone(s1: real, s2: real)
    requires s1 <= s2
    ensures Severity(ColorBand(s1)) <= Severity(ColorBand(s2))
  {
  }

  // ---------------------------------------------------------------------
  // Description
  // ---------------------------------------------------------------------

  const LowRiskText := "This contract shows favorable terms with minimal risk factors."
  const MediumRiskText := "Review recommended. Some clauses require attention."
  const HighRiskText := "High risk detected. Professional legal review strongly recommended."

  /** Renders `cond && text`: React drops the `false` child. */
  function When(cond: bool, text: string): seq<string> {
    if cond then [text] else []
  }

  /** The sentences rendered inside the description paragraph, in order. */
  function Description(score: real): (d: seq<string>)
    ensures |d| == 1
    ensures d[0] == LowRiskText <==> ColorBand(score) == Green
    ensures d[0] == HighRiskText <==> ColorBand(score) == Red
  {
    When(score < 33.0, LowRiskText)
      + When(score >= 33.0 && score < 66.0, MediumRiskText)
      + When(score >= 66.0, HighRiskText)
  }

  /** The description and the colour follow the same thresholds everywhere. */
  lemma DescriptionFollowsColor(score: real)
    ensures Description(score) == [DescriptionOf(ColorBand(score))]
  {
  }

  function DescriptionOf(b: Band): string {
    match b
    case Green => LowRiskText
    case Yellow => MediumRiskText
    case Red => HighRiskText
  }

  // ---------------------------------------------------------------------
  // Indicator rings
  // ---------------------------------------------------------------------

  datatype Ring = Ring(name: string, value: nat, color: string)

  /** The three ring items before filtering, each 100 or 0. */
  function RingItems(score: real): (items: seq<Ring>)
    ensures |items| == 3
    ensures forall i :: 0 <= i < 3 ==> items[i].value == 0 || items[i].value == 100
  {
    [ Ring("Critical", if score > 66.0 then 100 else 0, "text-red-400"),
      Ring("Warning", if score > 33.0 && score <= 66.0 then 100 else 0, "text-yellow-400"),
      Ring("Safe", if score <= 33.0 then 100 else 0, "text-green-400") ]
  }

  /** The items whose value is positive, which are the ones rendered. */
  function Visible(items: seq<Ring>): (vs: seq<Ring>)
    ensures |vs| <= |items|
    ensures forall r :: r in vs <==> r in items && r.value > 0
  {
    if items == [] then []
    else (if items[0].value > 0 then [items[0]] else []) + Visible(items[1..])
  }

  /** The band the rings show: upper bounds inclusive, unlike the colour. */
  function RingBand(score: real): (b: Band)
    ensures b == Red <==> score > 66.0
    ensures b == Yellow <==> 33.0 < score <= 66.0
    ensures b == Green <==> score <= 33.0
  {
    if score > 66.0 then Red
    else if score > 33.0 then Yellow
    else Green
  }

  function RingLabel(b: Band): string {
    match b
    case Green => "Safe"
    case Yellow => "Warning"
    case Red => "Critical"
  }

  /** Filtering a three-item list keeps the lit items in their order. */
  lemma VisibleOfThree(a: Ring, b: Ring, c: Ring)
    ensures Visible([a, b, c]) == (if a.value > 0 then [a] else [])
                                  + (if b.value > 0 then [b] else [])
                                  + (if c.value > 0 then [c] else [])
  {
    assert [a, b, c][1..] == [b, c];
    assert [b, c][1..] == [c];
    assert [c][1..] == [];
    assert Visible([c]) == (if c.value > 0 then [c] else []) + Visible([]);
    assert Visible([b, c]) == (if b.value > 0 then [b] else []) + Visible([c]);
    assert Visible([a, b, c]) == (if a.value > 0 then [a] else []) + Visible([b, c]);
  }

  /** Exactly one ring is shown for every score, and it is the ring band's. */
  lemma ExactlyOneRing(score: real)
    ensures |Visible(RingItems(score))| == 1
    ensures Visible(RingItems(score))[0].name == RingLabel(RingBand(score))
    ensures Visible(RingItems(score))[0].value == 100
  {
    var items := RingItems(score);
    VisibleOfThree(items[0], items[1], items[2]);
    assert items == [items[0], items[1], items[2]];
  }

  /** The rings and the colour agree except at exactly the two thresholds. */
  lemma RingAndColorDisagreeOnlyAtThresholds(score: real)
    ensures RingBand(score) != ColorBand(score) <==> score == 33.0 || score == 66.0
  {
  }

  /** At 33 the gauge is yellow with the medium description, yet the Safe
      ring is lit. */
  lemma MismatchAt33()
    ensures ColorBand(33.0) == Yellow && Description(33.0) == [MediumRiskText]
    ensures Visible(RingItems(33.0)) == [Ring("Safe", 100, "text-green-400")]
  {
    ExactlyOneRing(33.0);
  }

  /** At 66 the gauge is red and calls the risk high, yet the Warning ring
      is lit. */
  lemma MismatchAt66()
    ensures ColorBand(66.0) == Red && Description(66.0) == [HighRiskText]
    ensures Visible(RingItems(66.0)) == [Ring("Warning", 100, "text-yellow-400")]
  {
    ExactlyOneRing(66.0);
  }

  // ---------------------------------------------------------------------
  // Needle and number
  // ---------------------------------------------------------------------

  /** The needle angle in degrees; the score is not clamped. */
  function Rotation(score: real): (deg: real)
    ensures (deg + 90.0) * 100.0 == score * 180.0
  {
    (score / 100.0) * 180.0 - 90.0
  }

  /** 0 points the needle left, 50 up, 100 right. */
  lemma RotationEndpoints()
    ensures Rotation(0.0) == -90.0 && Rotation(50.0) == 0.0 && Rotation(100.0) == 90.0
  {
  }

  lemma RotationStrictlyIncreasing(s1: real, s2: real)
    requires s1 < s2
    ensures Rotation(s1) < Rotation(s2)
  {
  }

  /** A score outside [0, 100] turns the needle past the dial's ends. */
  lemma RotationNotClamped()
    ensures Rotation(200.0) == 270.0 && Rotation(-100.0) == -270.0
  {
  }

  /** The needle stays on the dial exactly for scores in [0, 100]. */
  lemma RotationOnDialIff(score: real)
    ensures -90.0 <= Rotation(score) <= 90.0 <==> 0.0 <= score <= 100.0
  {
  }

  /** `Math.round(score)`: the nearest integer, halves rounded up. */
  function DisplayedScore(score: real): (n: int)
    ensures score - 0.5 < n as real <= score + 0.5
  {
    (score + 0.5).Floor
  }

  lemma HalvesRoundUp()
    ensures DisplayedScore(32.5) == 33 && DisplayedScore(-0.5) == 0
  {
  }
}

=== FILE: strings.dfy ===
/** ASCII character classes and the small string and sequence operations the
    core files rely on: `toLowerCase`, `includes`, `slice(0, n)`, `join`, and
    the order-preserving subsequence relation used to state filtering. */
module Strings {

  // ---------------------------------------------------------------------
  // Character classes (ASCII only)
  // ---------------------------------------------------------------------

  /** The regular-expression class `[A-Z]`. */
  predicate IsUpper(c: char) { 'A' <= c <= 'Z' }

  /** The regular-expression class `[a-z]`. */
  predicate IsLower(c: char) { 'a' <= c <= 'z' }

  /** The regular-expression class `[0-9]`. */
  predicate IsDigit(c: char) { '0' <= c <= '9' }

  /** The regular-expression class `\w`, i.e. `[A-Za-z0-9_]`. */
  predicate IsWordChar(c: char) { IsUpper(c) || IsLower(c) || IsDigit(c) || c == '_' }

  /** The ASCII part of the regular-expression class `\s`, which is also what
      `String.prototype.trim` strips: space, tab, line feed, vertical tab,
      form feed and carriage return. */
  predicate IsWhitespace(c: char) {
    c == ' ' || c == '\t' || c == '\n' || c == '\U{000B}' || c == '\U{000C}' || c == '\r'
  }

  /** The line terminators that the multiline anchors `^` and `$` recognise. */
  predicate IsLineTerminator(c: char) {
    c == '\n' || c == '\r' || c == '\U{2028}' || c == '\U{2029}'
  }

  /** Length of the maximal run of word characters at the start of `s`. */
  function WordRunLength(s: string): (n: nat)
    ensures n <= |s|
    ensures forall i :: 0 <= i < n ==> IsWordChar(s[i])
    ensures n == |s| || !IsWordChar(s[n])
    decreases |s|
  {
    if |s| > 0 && IsWordChar(s[0]) then 1 + WordRunLength(s[1..]) else 0
  }

  lemma {:induction false} WordRunLengthOfAppend(w: string, rest: string)
    requires forall i :: 0 <= i < |w| ==> IsWordChar(w[i])
    requires rest == [] || !IsWordChar(rest[0])
    ensures WordRunLength(w + rest) == |w|
    decreases |w|
  {
    if |w| > 0 {
      assert (w + rest)[1..] == w[1..] + rest;
      WordRunLengthOfAppend(w[1..], rest);
    }
  }

  /** A run of word characters stops where the next character is not one. */
  lemma {:induction false} WordRunLengthStopsAt(w: string, rest: string)
    requires rest == [] || !IsWordChar(rest[0])
    ensures WordRunLength(w + rest) == WordRunLength(w)
    decreases |w|
  {
    if |w| > 0 {
      assert (w + rest)[0] == w[0];
      if IsWordChar(w[0]) {
        assert (w + rest)[1..] == w[1..] + rest;
        WordRunLengthStopsAt(w[1..], rest);
      }
    }
  }

  // ---------------------------------------------------------------------
  // Lower-casing
  // ---------------------------------------------------------------------

  function LowerChar(c: char): (d: char)
    ensures !IsUpper(d)
    ensures IsWordChar(d) <==> IsWordChar(c)
    ensures IsUpper(c) ==> d as int == c as int + 32
    ensures !IsUpper(c) ==> d == c
  {
    if IsUpper(c) then (c as int + 32) as char else c
  }

  /** `String.prototype.toLowerCase` restricted to ASCII letters. */
  function ToLower(s: string): (r: string)
    ensures |r| == |s|
    ensures forall i :: 0 <= i < |s| ==> r[i] == LowerChar(s[i])
  {
    seq(|s|, i requires 0 <= i < |s| => LowerChar(s[i]))
  }

  lemma ToLowerAppend(a: string, b: string)
    ensures ToLower(a + b) == ToLower(a) + ToLower(b)
  {
  }

  lemma ToLowerIdempotent(s: string)
    ensures ToLower(ToLower(s)) == ToLower(s)
  {
  }

  // ---------------------------------------------------------------------
  // Substring search
  // ---------------------------------------------------------------------

  /** `needle` occurs in `hay` starting at index `i`. */
  predicate OccursAt(hay: string, needle: string, i: nat) {
    i + |needle| <= |hay| && hay[i..i + |needle|] == needle
  }

  /** `String.prototype.includes`. */
  predicate Contains(hay: string, needle: string) {
    exists i: nat | i <= |hay| :: OccursAt(hay, needle, i)
  }

  lemma ContainsWitness(hay: string, needle: string, i: nat)
    requires i + |needle| <= |hay|
    requires forall k :: 0 <= k < |needle| ==> hay[i + k] == needle[k]
    ensures Contains(hay, needle)
  {
    assert hay[i..i + |needle|] == needle;
    assert OccursAt(hay, needle, i);
  }

  /** One mismatching character rules out an occurrence. */
  lemma MismatchNotOccurs(hay: string, needle: string, i: nat, k: nat)
    requires k < |needle| && i + k < |hay| && hay[i + k] != needle[k]
    ensures !OccursAt(hay, needle, i)
  {
    if i + |needle| <= |hay| {
      assert hay[i..i + |needle|][k] == hay[i + k];
    }
  }

  /** An occurrence in `[c] + rest` either starts at the front or lies
      wholly inside `rest`. */
  lemma ContainsCons(c: char, rest: string, needle: string)
    requires Contains([c] + rest, needle)
    ensures OccursAt([c] + rest, needle, 0) || Contains(rest, needle)
  {
    var hay := [c] + rest;
    var i: nat :| i <= |hay| && OccursAt(hay, needle, i);
    if i > 0 {
      assert hay[i..i + |needle|] == rest[i - 1..i - 1 + |needle|];
      assert OccursAt(rest, needle, i - 1);
    }
  }

  /** Appending text on either side never removes an occurrence. */
  lemma ContainsExtend(pre: string, hay: string, post: string, needle: string)
    requires Contains(hay, needle)
    ensures Contains(pre + hay + post, needle)
  {
    var i: nat :| i <= |hay| && OccursAt(hay, needle, i);
    var big := pre + hay + post;
    assert big[|pre| + i..|pre| + i + |needle|] == hay[i..i + |needle|];
    assert OccursAt(big, needle, |pre| + i);
  }

  lemma NotContainsLonger(hay: string, needle: string)
    requires |hay| < |needle|
    ensures !Contains(hay, needle)
  {
  }

  // ---------------------------------------------------------------------
  // Sequences
  // ---------------------------------------------------------------------

  /** `Array.prototype.slice(0, n)`. */
  function Take<T>(xs: seq<T>, n: nat): (r: seq<T>)
    ensures |r| == if |xs| < n then |xs| else n
    ensures r == xs[..|r|]
  {
    if |xs| < n then xs else xs[..n]
  }

  /** `Array.prototype.join(sep)` on an array of strings. */
  function Join(xs: seq<string>, sep: string): string
  {
    if |xs| == 0 then ""
    else if |xs| == 1 then xs[0]
    else xs[0] + sep + Join(xs[1..], sep)
  }

  lemma JoinNonEmpty(xs: seq<string>, sep: string)
    requires |xs| > 0 && |xs[0]| > 0
    ensures |Join(xs, sep)| > 0
  {
  }

  /** `xs` is obtained from `ys` by deleting elements: same order, no element
      used twice. */
  predicate IsSubsequence<T(==)>(xs: seq<T>, ys: seq<T>)
    decreases |ys|
  {
    if |xs| == 0 then true
    else if |ys| == 0 then false
    else if xs[0] == ys[0] then IsSubsequence(xs[1..], ys[1..])
    else IsSubsequence(xs, ys[1..])
  }

  lemma {:induction false} SubsequenceRefl<T>(xs: seq<T>)
    ensures IsSubsequence(xs, xs)
    decreases |xs|
  {
    if |xs| > 0 {
      SubsequenceRefl(xs[1..]);
    }
  }

  lemma {:induction false} SubsequenceDropHead<T>(y: T, xs: seq<T>, ys: seq<T>)
    requires IsSubsequence(xs, ys)
    ensures IsSubsequence(xs, [y] + ys)
    decreases |ys|, 1
  {
    if |xs| > 0 && xs[0] == y {
      // [y] + ys matches xs[0] against y; the rest of xs is a subsequence of ys
      // because ys's own match of xs can be shortened by one element.
      SubsequenceTail(xs, ys);
      assert ([y] + ys)[1..] == ys;
    } else {
      assert ([y] + ys)[1..] == ys;
    }
  }

  lemma {:induction false} SubsequenceTail<T>(xs: seq<T>, ys: seq<T>)
    requires |xs| > 0 && IsSubsequence(xs, ys)
    ensures IsSubsequence(xs[1..], ys)
    decreases |ys|, 0
  {
    if xs[0] == ys[0] {
      SubsequenceDropHead(ys[0], xs[1..], ys[1..]);
      assert [ys[0]] + ys[1..] == ys;
    } else {
      SubsequenceTail(xs, ys[1..]);
      SubsequenceDropHead(ys[0], xs[1..], ys[1..]);
      assert [ys[0]] + ys[1..] == ys;
    }
  }

  lemma {:induction false} SubsequenceCons<T>(y: T, xs: seq<T>, ys: seq<T>)
    requires IsSubsequence(xs, ys)
    ensures IsSubsequence([y] + xs, [y] + ys)
  {
    assert ([y] + xs)[1..] == xs;
    assert ([y] + ys)[1..] == ys;
  }

  /** Cutting `a + t` inside `a` cuts `a`. */
  lemma SliceOfAppend<T>(a: seq<T>, t: seq<T>, k: nat)
    requires k <= |a|
    ensures (a + t)[..k] == a[..k]
    ensures (a + t)[k..] == a[k..] + t
  {
  }

  /** A slice of a suffix is a slice of the whole. */
  lemma SliceOfSlice<T>(s: seq<T>, p: nat, e: nat)
    requires p <= e <= |s|
    ensures s[p..][..e - p] == s[p..e]
  {
  }

  lemma ConsParts<T>(h: T, t: seq<T>)
    ensures ([h] + t)[0] == h && ([h] + t)[1..] == t
  {
  }

  lemma AppendAssoc<T>(x: seq<T>, y: seq<T>, z: seq<T>)
    ensures x + y + z == x + (y + z)
  {
  }

  lemma ConsAppendAssoc<T>(h: T, x: seq<T>, y: seq<T>)
    ensures [h] + (x + y) == ([h] + x) + y
  {
  }

  /** Dropping a prefix free of `c` keeps the number of `c`s. */
  lemma CountWithoutPrefix<T>(p: seq<T>, rest: seq<T>, c: T)
    requires c !in p
    ensures multiset(p + rest)[c] == multiset(rest)[c]
  {
    assert multiset(p + rest) == multiset(p) + multiset(rest);
  }

  /** Putting the same element in front of two sequences keeps them level in
      `c`. */
  lemma CountSameHead<T>(x: T, r: seq<T>, s: seq<T>, c: T)
    requires multiset(r)[c] == multiset(s)[c]
    ensures multiset([x] + r)[c] == multiset([x] + s)[c]
  {
    assert multiset([x] + r) == multiset([x]) + multiset(r);
    assert multiset([x] + s) == multiset([x]) + multiset(s);
  }

  /** A subsequence never holds an element more often than the original. */
  lemma {:induction false} SubsequenceMultiset<T>(xs: seq<T>, ys: seq<T>)
    requires IsSubsequence(xs, ys)
    ensures multiset(xs) <= multiset(ys)
    decreases |ys|
  {
    if |xs| == 0 {
    } else if xs[0] == ys[0] {
      SubsequenceMultiset(xs[1..], ys[1..]);
      assert xs == [xs[0]] + xs[1..];
      assert ys == [ys[0]] + ys[1..];
    } else {
      SubsequenceMultiset(xs, ys[1..]);
      assert ys == [ys[0]] + ys[1..];
    }
  }

  lemma {:induction false} SubsequenceSamePrefix<T>(p: seq<T>, xs: seq<T>, ys: seq<T>)
    requires IsSubsequence(xs, ys)
    ensures IsSubsequence(p + xs, p + ys)
    decreases |p|
  {
    if |p| > 0 {
      SubsequenceSamePrefix(p[1..], xs, ys);
      SubsequenceCons(p[0], p[1..] + xs, p[1..] + ys);
      assert [p[0]] + (p[1..] + xs) == p + xs;
      assert [p[0]] + (p[1..] + ys) == p + ys;
    } else {
      assert p + xs == xs && p + ys == ys;
    }
  }

  lemma {:induction false} SubsequenceDropPrefix<T>(p: seq<T>, xs: seq<T>, ys: seq<T>)
    requires IsSubsequence(xs, ys)
    ensures IsSubsequence(xs, p + ys)
    decreases |p|
  {
    if |p| > 0 {
      SubsequenceDropPrefix(p[1..], xs, ys);
      SubsequenceDropHead(p[0], xs, p[1..] + ys);
      assert [p[0]] + (p[1..] + ys) == p + ys;
    } else {
      assert p + ys == ys;
    }
  }
}

=== FILE: upload_form.dfy ===
/**
 * The accept/reject decision of the upload form's `handleSelect`: given the
 * files picked or dropped by the user it either records an error message or
 * keeps the first file and hands it to the upload callback.
 */
module UploadForm {
  import opened Wrappers

  /** The two fields of a browser `File` the decision reads. */
  datatype File = File(mimeType: string, size: nat)

  /** The component's state: the accepted files and the error banner. */
  datatype UploadState = UploadState(files: seq<File>, error: Option<string>)

  /** The new state and the files passed to `onDocumentUpload`, in call order. */
  datatype SelectOutcome = SelectOutcome(state: UploadState, uploads: seq<File>)

  const PdfType := "application/pdf"
  const DocxType := "application/vnd.openxmlformats-officedocument.wordprocessingml.document"
  const TextType := "text/plain"
  const AcceptedTypes: seq<string> := [PdfType, DocxType, TextType]

  /** Ten mebibytes: the largest size accepted. */
  const MaxUploadBytes: nat := 10 * 1024 * 1024

  const TypeError := "Please upload PDF, DOCX, or TXT files only."
  const SizeError := "File size too large. Please upload files under 10MB."

  const InitialState := UploadState([], None)

  /** The file would pass both checks. */
  predicate Acceptable(f: File) {
    f.mimeType in AcceptedTypes && f.size <= MaxUploadBytes
  }

  /** `handleSelect(fileList)` on the current state. */
  function HandleSelect(state: UploadState, fileList: seq<File>): (r: SelectOutcome)
    ensures fileList == [] ==> r == SelectOutcome(state, [])
    ensures fileList != [] ==> (r.uploads != [] <==> Acceptable(fileList[0]))
    ensures r.uploads != [] ==> r.uploads == [fileList[0]]
                                && r.state == UploadState([fileList[0]], None)
    ensures r.uploads == [] ==> r.state.files == state.files
    ensures fileList != [] && fileList[0].mimeType !in AcceptedTypes ==>
              r.state.error == Some(TypeError)
    ensures fileList != [] && fileList[0].mimeType in AcceptedTypes
            && fileList[0].size > MaxUploadBytes ==>
              r.state.error == Some(SizeError)
  {
    if |fileList| == 0 then SelectOutcome(state, [])
    else
      var file := fileList[0];
      if file.mimeType !in AcceptedTypes then
        SelectOutcome(state.(error := Some(TypeError)), [])
      else if file.size > MaxUploadBytes then
        SelectOutcome(state.(error := Some(SizeError)), [])
      else
        SelectOutcome(UploadState([file], None), [file])
  }

  /** Files after the first never influence the outcome. */
  lemma OnlyFirstFileMatters(state: UploadState, first: File, rest1: seq<File>, rest2: seq<File>)
    ensures HandleSelect(state, [first] + rest1) == HandleSelect(state, [first] + rest2)
  {
  }

  /** A file of the wrong type that is also too large gets the type message:
      the type is checked first. */
  lemma TypeCheckedBeforeSize(state: UploadState, f: File, rest: seq<File>)
    requires f.mimeType !in AcceptedTypes && f.size > MaxUploadBytes
    ensures HandleSelect(state, [f] + rest).state.error == Some(TypeError)
    ensures HandleSelect(state, [f] + rest).uploads == []
  {
  }

  /** The size limit is inclusive: 10485760 bytes pass, one more does not. */
  lemma SizeLimitIsInclusive(state: UploadState, mimeType: string)
    requires mimeType in AcceptedTypes
    ensures HandleSelect(state, [File(mimeType, 10485760)]).uploads == [File(mimeType, 10485760)]
    ensures HandleSelect(state, [File(mimeType, 10485761)]).uploads == []
    ensures HandleSelect(state, [File(mimeType, 10485761)]).state.error == Some(SizeError)
  {
  }

  /** An error from an earlier selection is cleared by an accepted one, and
      a rejected selection keeps the previously accepted file. */
  lemma RejectionKeepsAcceptedFile(f: File, g: File)
    requires Acceptable(f) && !Acceptable(g)
    ensures var s1 := HandleSelect(InitialState, [f]).state;
            var s2 := HandleSelect(s1, [g]).state;
            s2.files == [f] && s2.error.Some?
            && HandleSelect(s2, [f]).state == s1
  {
  }

  /** Selecting the same acceptable file again leaves the state as it was
      (though the upload callback runs again). */
  lemma ReselectIsStable(state: UploadState, f: File)
    requires Acceptable(f)
    ensures var o1 := HandleSelect(state, [f]);
            var o2 := HandleSelect(o1.state, [f]);
            o2.state == o1.state && o2.uploads == [f]
  {
  }
}

=== FILE: wrappers.dfy ===
/** Failure-compatible wrappers shared by the modules of this model:
    `Option` stands for JavaScript's `null`/`undefined`-or-value, and
    `Result` for a computation that either returns or throws. */
module Wrappers {

  datatype Option<+T> = None | Some(value: T)

  datatype Result<+T, +E> = Success(value: T) | Failure(error: E)
}
